=== FILE: README.md ===
# Virtual art gallery: collections, favourites, comments and the artwork resolver

This project models the logic of a small virtual-art-gallery application. The app keeps
themed collections of artworks from an external museum catalog. A browser client
shows them and lets a visitor keep favourites and leave comments.

The model covers these parts:

- **The backend (`backend/server.js`).**
  - The public collection listing with its `published` filter.
  - The administrator's create, update, publish and delete handlers for collections.
  - The favourites endpoints and the comment endpoints. Both work for the fixed user 1.
  - The two handlers registered for `GET /api/collections/:id/artworks`:
    - the first, at line 49, answers with the collection name and its catalog ids;
    - the second, at line 347, resolves the ids against the catalog, six requests at a time.
- **The seeding script (`backend/seed-met-collections.js`).** It searches the catalog per
  theme, keeps the first twenty hits, inserts a collection, and links the hits with
  `INSERT OR IGNORE`.
- **The browser-side favourites list (`frontend/src/hooks/useFavorites.js`).**
- **The collection page (`frontend/src/pages/CollectionPage.jsx`).** It loads, normalises
  and filters the collection's artworks.
- **The artwork page (`frontend/src/pages/ArtPage.jsx`).** It covers the detail fields with
  their placeholders, the comment list and the comment form.

## How the pieces are modelled

**Stores and replies.** Stores are immutable values:

- `seq` of rows for the collection, link and comment tables;
- `set<string>` for a user's favourites.

Every handler is a pure function of the store and the request. A handler that writes
returns a `Step`: the new store together with the reply. The read-only handlers return
their rows or their reply. A reply is `Ok(code, body)` or `Fail(code, message)`, with
the status codes and Dutch messages of the source.

**JavaScript and SQL behaviour** is written out in module `Js`:

- truthiness;
- `String(x)`;
- `a || b` and `x ?? d`;
- `trim()`, with the full ECMAScript white-space set;
- `toLowerCase()`, on ASCII letters only;
- `includes`.

SQLite's row-id choice is written out in module `Sqlite`: one above the largest id, or 1 in
an empty table. The two `ORDER BY` clauses are stable insertion sorts on a two-part key,
in module `Sorting`.

**The catalog** is a function parameter, `fetch: string -> FetchOutcome`. It answers a
rejected request, a non-2xx response, or a record whose fields may all be absent. Three
other things are parameters in the same way:

- the server's reply to a comment post, as the artwork page sees it;
- `JSON.parse`;
- the Dutch date formatter.

**Behaviour worth knowing in advance:**

- **A rejected catalog request.** In the resolver loop (backend/server.js:387-393), a
  request that rejects rejects its window's `Promise.all`. The handler then answers 500
  for the whole reply; the one item is not dropped.
- **No server-side cache.** Every resolver call asks the catalog again for every id;
  there is no cache of catalog records.

## Model

| member | source | states |
|---|---|---|
| Catalog.ServerImage | backend/server.js:374-375 | the small image when it is non-empty, else the full image, else `""`; empty exactly when both are missing or empty |
| Catalog.Project | backend/server.js:367-384 | a record without any image yields no item; otherwise the item's image is non-empty, its id is `String(objectID)`, and title, artist and year fall back to `"Kunstwerk #"+id`, `"Onbekende kunstenaar"` and `""` |
| Catalog.ResolveAll | backend/server.js:360-393 | the reply is a 500 with the Dutch message exactly when some request rejects; otherwise 200 with at most one item per id; an empty id list answers `[]` |
| Catalog.ResolvedInInputOrder | backend/server.js:387-393 | item k is the projection of the record fetched for id `idx[k]`, the positions `idx` strictly increase, and every id whose record has an image contributes, so non-2xx and imageless ids are dropped without aborting the rest |
| Catalog.NothingDroppedKeepsIds | backend/server.js:387-393 | when every id yields an item carrying that id, the output ids equal the input ids, in order |
| Catalog.Lookup | backend/server.js:367-375 | an id whose request gives a non-2xx response yields no item; a fetched record yields an item exactly when it has a small or full image; every item's image is non-empty |
| Catalog.WindowsAreSlices | backend/server.js:389-390 | window k is `ids.slice(6k, 6k+6)`, and there are `ceil(n/6)` windows for n ids |
| Catalog.WindowsPartition | backend/server.js:387-391 | the `slice(i, i+6)` windows are non-empty, at most six long, all but the last exactly six, and concatenate to the id list |
| Catalog.LoopTurn | backend/server.js:389-392 | one turn launches the next window of the partition; a rejected request in it rejects the whole id list, otherwise the results grow by that window's surviving items |
| Catalog.LaunchWindows | backend/server.js:387-393 | the loop either stops at the first window holding a rejected request, all earlier windows clean, or covers every id with the resolved list accumulated |
| Catalog.ResolveInWindows | backend/server.js:362-393 | the windowed loop gives the same reply as the unwindowed resolver, launches only windows of the partition (each at most six requests), launches all of them on success, and on failure stops at the first window with a rejected request |
| Sqlite.NextRowId | backend/server.js:243 | a new row id exceeds every id in use, is 1 in an empty table, and is otherwise one above an id in use |
| Sorting.Insert | backend/server.js:356 | inserting adds exactly the element to the multiset and keeps a key-sorted list sorted |
| Sorting.SortBy | backend/server.js:356 | the result is a permutation of the input and is sorted by the key |
| Sorting.SortBySorted | backend/server.js:356 | sorting an already sorted list leaves it unchanged |
| Sorting.SortByKeepsImages | backend/server.js:360 | the ids read from the sorted rows are a permutation of the ids of the unsorted rows |
| Links.LinksOf | backend/server.js:353-355 | every link of the collection is kept as often as the table holds it, and no other link |
| Links.ResolverOrder | backend/server.js:356 | the resolver's rows are a permutation ordered by `COALESCE(sort_order, 999999)`, ties by ascending row id |
| Links.IdListOrder | backend/server.js:66 | the id-list rows are a permutation with the NULL positions first and the others ascending |
| Links.OrdersDisagreeOnNull | backend/server.js:66 | in any collection holding a link without a position and a link whose position is below 999999, the resolver (line 356) lists the positioned link first and the id-list handler lists it after the other |
| CollectionsApi.ResolverIds | backend/server.js:353-360 | the resolver's ids are the catalog ids of the collection's links, each once per link |
| CollectionsApi.ListCollections | backend/server.js:16-46 | with `published=true` a row is listed exactly when its flag is 1; any other query lists every row; the id order is kept |
| CollectionsApi.IdListReply | backend/server.js:49-83 | 404 with "Collectie niet gevonden" exactly for an unknown collection; otherwise its id, its name, and a permutation of its links' catalog ids |
| CollectionsApi.AdminListCollections | backend/server.js:215-227 | a permutation of the table with ids strictly descending |
| CollectionsApi.CreateCollection | backend/server.js:230-262 | a missing or blank name gives 400 and a non-text name 500, both without a change; a `true` or `false` description, category or cover cannot be bound and gives 500 without a change; otherwise one row is appended with a fresh id, the trimmed name, `?? ""` defaults and a 0/1 flag, and the table invariant is kept |
| CollectionsApi.UpdateCollection | backend/server.js:265-303 | the same name check, and a boolean description, category or cover gives 500 without a change; otherwise only the rows with the id change, getting the trimmed name and `?? ""` fields while keeping id and flag; the body is empty exactly when the id is unknown; the invariant is kept |
| CollectionsApi.SetPublished | backend/server.js:306-331 | only the matching row's flag changes, to 1 or 0 by truthiness; the body is empty exactly when the id is unknown |
| CollectionsApi.DeleteCollection | backend/server.js:334-343 | always 204; the rows with the id are gone and every other row stays |
| CollectionsApi.AppendKeepsWellFormed | backend/server.js:243-249 | appending a trimmed, non-blank row with the next id keeps ascending ids and the row invariant |
| CollectionsApi.ResolvedArtworksReply | backend/server.js:347-400 | the resolver handler's reply equals the unwindowed resolver on the collection's ids in resolver order; windows are at most six long; a collection without links answers `[]` with no request |
| FavoritesApi.AddFavorite | backend/server.js:109-133 | a falsy id gives 400 and no change; otherwise 201 with `String(id)`, which is added to the set |
| FavoritesApi.RemoveFavorite | backend/server.js:136-153 | always 204; the id is gone and every other id keeps its membership |
| FavoritesApi.AddIdempotent | backend/server.js:121 | adding the same id twice is adding it once, with the same reply |
| FavoritesApi.NumberAndTextAgree | backend/server.js:124 | a number and its decimal text name the same favourite |
| FavoritesApi.AddThenRemove | backend/server.js:121-145 | removing a newly added id restores the set; removing an absent id changes nothing |
| CommentsApi.ListComments | backend/server.js:157-176 | exactly the artwork's comments are listed |
| CommentsApi.PostComment | backend/server.js:179-208 | a missing or blank text gives 400 and a non-text one 500, both without a change; otherwise the trimmed text is appended under a fresh id |
| CommentsApi.AppendedRowListedFirst | backend/server.js:167 | a new comment heads its artwork's list, newest first, and leaves the lists of other artworks alone |
| CommentsApi.PostedCommentListedFirst | backend/server.js:179-208 | after a successful post, that artwork's list is the new comment followed by the old list, reading `ORDER BY created_at DESC` as newest insertion first; two comments in the same second tie, and SQLite may then list the new one second |
| Js.Truthy | backend/server.js:115 | exactly `undefined`, `null`, `false`, `0` and `""` are falsy |
| Js.Or | backend/server.js:379-381 | `a \|\| b` gives the field when it is non-empty text and the fallback otherwise; the result is empty only when both are |
| Js.ToLower | frontend/src/pages/CollectionPage.jsx:65-70 | the lower-cased text has the same length, and each character is that character lower-cased |
| CollectionsApi.Find | backend/server.js:53-56 | a found row is in the table and has the id; nothing is found exactly when no row has the id |
| Js.Flag | backend/server.js:248 | the flag is 0 or 1, and 1 exactly for a truthy value |
| Js.Trim | backend/server.js:234 | the result is a slice of the text with only white space before and after it, and no white space at either of its own ends; it is empty exactly when the text is all white space |
| Js.TrimIdempotent | backend/server.js:193 | trimming twice equals trimming once |
| Js.TrimmedPassesCheck | backend/server.js:185-193 | a non-blank text, trimmed before it is sent, passes the server's check and is stored exactly as sent |
| Js.ToStr | backend/server.js:124 | a string is kept as is; an integer prints as a minus sign exactly when negative, followed by digits that read back as its magnitude and start with `0` only for zero, which prints as `"0"` |
| Js.NatToDecimalValue | backend/server.js:124 | reading the printed numeral of a non-negative integer back digit by digit gives that integer |
| Js.Coalesce | backend/server.js:245-247 | `null` and `undefined` become the fallback text; every other value is kept |
| Js.CheckRequired | backend/server.js:234-236 | `!x \|\| !x.trim()` rejects exactly the falsy and blank values; a truthy non-string throws; what passes is the trimmed, non-blank text |
| Js.NumToStrInjective | backend/server.js:124 | distinct numbers stringify to distinct texts |
| Js.IncludesMeansOccurs | frontend/src/pages/CollectionPage.jsx:69-70 | `includes` holds exactly when the needle occurs at some offset |
| Seed.MetSearch | backend/seed-met-collections.js:7-16 | a non-2xx search fails with "MET search failed: " and the status; a missing `objectIDs` reads as no hits |
| Seed.Pick | backend/seed-met-collections.js:72 | the picked ids are a prefix of the hits, twenty long or all of them |
| Seed.UpsertCollection | backend/seed-met-collections.js:18-26 | a new row with a fresh id is always appended, fields stored as given, flag 0/1 |
| Seed.SeededRowKeepsWellFormed | backend/seed-met-collections.js:18-26 | a trimmed, non-blank seeded name keeps the collection table well formed |
| Seed.InsertLink | backend/seed-met-collections.js:30-31 | the linked pairs become the old pairs plus the new one; a row is appended exactly when the pair is new, with no position and a fresh row id |
| Seed.InsertArtworkIds | backend/seed-met-collections.js:28-39 | the existing rows stay in front; every appended row belongs to the collection and has no position |
| Seed.InsertArtworkIdsUnion | backend/seed-met-collections.js:28-39 | afterwards the linked pairs are the old pairs united with the requested ones |
| Seed.InsertArtworkIdsIdempotent | backend/seed-met-collections.js:28-39 | running the insertion twice adds nothing the second time |
| Seed.InsertArtworkIdsKeepsUnique | backend/seed-met-collections.js:30-35 | no pair is linked twice, however the ids repeat, and row ids keep ascending |
| Seed.InsertFreshIds | backend/seed-met-collections.js:34-36 | distinct unlinked ids append one row each, in order |
| Seed.SeededLinks | backend/seed-met-collections.js:28-39 | a collection without links gets exactly one link per hit, in search order, without positions |
| Seed.SeededCollectionInSearchOrder | backend/seed-met-collections.js:72-82 | both artwork handlers list a freshly seeded collection in search order |
| Seed.SeedTheme | backend/seed-met-collections.js:70-82 | a failed search stops the run with nothing written; otherwise one collection row is appended, and the linked pairs grow by exactly the pairs of that row with the first twenty hits; the order of the links is stated by Seed.SeededThemeInSearchOrder |
| Seed.SeededThemeInSearchOrder | backend/seed-met-collections.js:70-82 | a theme with distinct hits, seeded under an id no link uses yet, shows its first twenty hits in search order through both artwork handlers |
| UseFavorites.Toggle | frontend/src/hooks/useFavorites.js:32-36 | an absent id is appended at the end; a present id loses every copy; `isFavorite` flips |
| UseFavorites.ToggleKeepsOthers | frontend/src/hooks/useFavorites.js:34 | the other ids keep their membership and their relative order |
| UseFavorites.ToggleKeepsNoDuplicates | frontend/src/hooks/useFavorites.js:34 | a list without duplicates stays without duplicates |
| UseFavorites.ToggleTwice | frontend/src/hooks/useFavorites.js:34 | toggling an absent id twice restores the list; a present id ends up moved to the end |
| UseFavorites.LoadFavorites | frontend/src/hooks/useFavorites.js:8-21 | the stored list is adopted exactly when the stored text is non-empty and parses to an array; otherwise `[]` |
| CollectionPage.Normalize | frontend/src/pages/CollectionPage.jsx:42-46 | the id becomes `String(id)`; a non-empty image is kept, otherwise the fallback picture; the other fields pass through |
| CollectionPage.NormalizeAll | frontend/src/pages/CollectionPage.jsx:42-46 | one normalised item per item, in order |
| CollectionPage.LoadWith | frontend/src/pages/CollectionPage.jsx:26-55 | a failed load keeps the default title, no items and shows the error; a successful one shows `collectionName \|\| "Collectie #"+id` and the normalised list |
| CollectionPage.ArtworkList | frontend/src/pages/CollectionPage.jsx:39 | as written: an array body, or an object without an `artworks` member, yields no items; an object's `artworks` list is taken as is |
| CollectionPage.Load | frontend/src/pages/CollectionPage.jsx:26-55 | as written: an error is shown exactly when the request fails; an array body or an object without `artworks` leaves the page empty; an object's `artworks` are shown normalised |
| CollectionPage.LoadFixed | frontend/src/pages/CollectionPage.jsx:26-55 | corrected: a served array is shown normalised; every other response gives the page as written |
| CollectionPage.ServedArtworksNeverListed | frontend/src/pages/CollectionPage.jsx:39 | as written, neither handler's reply puts any artwork on the page |
| CollectionPage.ArtworkListFixed | frontend/src/pages/CollectionPage.jsx:39 | corrected: the served array is read as the list |
| CollectionPage.ServedArtworksListed | frontend/src/pages/CollectionPage.jsx:37-48 | corrected: the page shows exactly the resolved artworks, in the served order, with their own ids, images, titles and artists |
| CollectionPage.Visible | frontend/src/pages/CollectionPage.jsx:64-73 | an item is kept exactly when both queries match it; only input items appear; blank queries keep the whole list |
| CollectionPage.VisibleInOrder | frontend/src/pages/CollectionPage.jsx:68 | the kept items sit at strictly increasing positions of the list |
| CollectionPage.MissingFieldHidden | frontend/src/pages/CollectionPage.jsx:69-70 | a missing or empty title (artist) is hidden by any non-blank title (artist) query |
| CollectionPage.OwnTitleFindsItem | frontend/src/pages/CollectionPage.jsx:65-69 | searching for an item's own title finds it |
| ArtPage.DetailImage | frontend/src/pages/ArtPage.jsx:166 | the full image first, then the small one, else `""` |
| ArtPage.Detail | frontend/src/pages/ArtPage.jsx:161-169 | each text field is the record's own when non-empty, else its Dutch placeholder; every text field is non-empty |
| ArtPage.ImagePreferenceReversed | frontend/src/pages/ArtPage.jsx:166 | with two different images the page and the server choose differently; with at most one they agree; they are empty together |
| ArtPage.DetailAgreesWithList | frontend/src/pages/ArtPage.jsx:161-163 | for a listed record the page shows the list item's title and artist, and its year except for the placeholder |
| ArtPage.FormatNlDateTime | frontend/src/pages/ArtPage.jsx:5-14 | a falsy value gives `""`; text that is not a date comes back as given; a date is formatted |
| ArtPage.ShowComments | frontend/src/pages/ArtPage.jsx:73-79 | one shown comment per row, in order, with the row's id and text and its `created_at` formatted for display |
| ArtPage.SubmitComment | frontend/src/pages/ArtPage.jsx:97-131 | a blank draft sends nothing; otherwise the trimmed draft is sent; a saved comment is prepended and the box cleared; a failed post changes nothing |
| ArtPage.SubmitAgreesWithServer | frontend/src/pages/ArtPage.jsx:97-123 | after a successful submit the page shows exactly the server's new list for the artwork, headed by the new comment whose text is the trimmed draft; like CommentsApi.PostedCommentListedFirst this reads equal timestamps as newest insertion first |

## Left out

- HTTP, Express routing, CORS, logging and `try`/`catch` plumbing are not modelled. A database error would also give a 500, and that is not modelled either.
- The route shadowing is not modelled as a mechanism. The handler at backend/server.js:49 is the one a request reaches. The handler at line 347 is modelled as written and is never said to be reached.
- The SQLite schema is not part of this model. The model assumes unique keys on `(user_id, met_object_id)` for favourites and on `(collection_id, met_object_id)` for links, because `INSERT OR IGNORE` relies on them. It also assumes integer primary keys without `AUTOINCREMENT`, whose new id is one above the largest in use; with `AUTOINCREMENT` a deleted largest id would not be reused. Deleting a collection does not cascade to its links in the model.
- Timestamps are left out: `created_at` and `updated_at` on collections, and `CURRENT_TIMESTAMP`. A comment's `created_at` is a parameter. `ORDER BY created_at DESC` is read as reverse insertion order. Equal timestamps are left to SQLite, which may order them either way.
- `GET /api/favorites` (backend/server.js:87-106) is left out: it lists the set in timestamp order, and timestamps are not modelled.
- The column selection of the listing queries is left out. The model returns whole rows, so the public listing's omission of `is_published` and the timestamps is not represented.
- CollectionsApi.ListCollections: its `ORDER BY id` is stated as keeping an ascending table ascending, not as a sort.
- CollectionsApi.IdListReply: states a permutation plus the order of the positioned links through Links.IdListOrder. SQLite leaves the order of equal positions open, and the model fixes table order.
- CommentsApi.ListComments: the newest-first order is stated through CommentsApi.AppendedRowListedFirst, not in its own contract.
- Numbers are integers: catalog ids, flags and statuses. `String(n)` is modelled as plain decimal, which holds for integers below 2^53; from 1e21 on JavaScript switches to exponent form, which is not modelled. Fractional numbers, objects and arrays in request bodies are not modelled.
- `toLowerCase()` is modelled on ASCII letters only. Unicode case mapping is left out.
- Date parsing and Dutch locale formatting in `formatNlDateTime` are an oracle. Only the falsy case and the not-a-date case are fixed.
- Persisting the favourites with `JSON.stringify` (frontend/src/hooks/useFavorites.js:24-30) is left out. It is a write to browser storage.
- React state, loading flags and the `cancelled` guard of the pages are left out. The rendering of all pages is left out too.
- The admin endpoints for links and covers that frontend/src/pages/AdminPage.jsx calls are not modelled, because no handler for them exists in the server.
- The rest of the frontend is not part of this model: AdminPage, LoginPage, HomePage, CollectionsPage, FavoritesPage, the components and the auth context. backend/create-admin.js is not part of this model either; it hashes a password and inserts one row.
- The catalog requests inside a window run concurrently. Only their order-preserving, sequential meaning is modelled.
- The seeding script's `main` is not modelled as a whole: its fixed list of three themes and its logging. One theme's step is modelled as Seed.SeedTheme.

## Findings

| source | as written | input that shows it | evidently intended | confidence | as-written member | corrected member |
|---|---|---|---|---|---|---|
| frontend/src/pages/CollectionPage.jsx:39 | the page takes its list from `data.artworks` | any collection: the reached handler sends `{collectionId, collectionName, metObjectIds}` and the resolver sends a bare array; neither has an `artworks` member, so the page never lists an artwork | read the resolver's array, which is what the page's comment and normalisation expect; this helps only once the resolver at line 347 is reached, so the registration at backend/server.js:49 must go too, or the page must resolve `metObjectIds` itself | high (by reading the code; not executed) | CollectionPage.ArtworkList | CollectionPage.ArtworkListFixed |

=== FILE: art_page.dfy ===
/** The artwork detail page of frontend/src/pages/ArtPage.jsx: the fields it shows for a
    catalog record, its comment list and the comment form. */
module ArtPage {
  import opened Wrappers
  import Js
  import Seqs
  import Catalog
  import CommentsApi

  const UnknownYear := "Jaartal onbekend"
  const UnknownMedium := "Techniek onbekend"
  const UnknownDimensions := "Afmetingen onbekend"
  const NoDescription := "Er is nog geen beschrijving beschikbaar voor dit kunstwerk."

  /** The texts the detail page renders for one catalog record. */
  datatype DetailView = DetailView(
    title: string, artist: string, year: string, medium: string,
    dimensions: string, image: string, description: string)

  /** The detail picture: the full-size image first, then the small one, else none. */
  function DetailImage(rec: Catalog.CatalogRecord): (img: string)
    ensures Js.HasText(rec.primaryImage) ==> img == rec.primaryImage.value
    ensures !Js.HasText(rec.primaryImage) && Js.HasText(rec.primaryImageSmall) ==> img == rec.primaryImageSmall.value
    ensures img == "" <==> !Js.HasText(rec.primaryImage) && !Js.HasText(rec.primaryImageSmall)
  {
    Js.Or(rec.primaryImage, Js.Or(rec.primaryImageSmall, ""))
  }

  /** The displayed fields for the record fetched for route id `id`: each text field is
      the record's own when it is non-empty and a fixed Dutch placeholder otherwise, so
      only the image can come out empty. */
  function Detail(id: string, rec: Catalog.CatalogRecord): (v: DetailView)
    ensures v.title == (if Js.HasText(rec.title) then rec.title.value else Catalog.DefaultTitle(id))
    ensures v.artist == (if Js.HasText(rec.artistDisplayName) then rec.artistDisplayName.value else Catalog.DefaultArtist)
    ensures v.year == (if Js.HasText(rec.objectDate) then rec.objectDate.value else UnknownYear)
    ensures v.medium == (if Js.HasText(rec.medium) then rec.medium.value else UnknownMedium)
    ensures v.dimensions == (if Js.HasText(rec.dimensions) then rec.dimensions.value else UnknownDimensions)
    ensures v.description == (if Js.HasText(rec.creditLine) then rec.creditLine.value else NoDescription)
    ensures v.image == DetailImage(rec)
    ensures v.title != "" && v.artist != "" && v.year != "" && v.medium != "" && v.dimensions != "" && v.description != ""
  {
    DetailView(
      Js.Or(rec.title, Catalog.DefaultTitle(id)),
      Js.Or(rec.artistDisplayName, Catalog.DefaultArtist),
      Js.Or(rec.objectDate, UnknownYear),
      Js.Or(rec.medium, UnknownMedium),
      Js.Or(rec.dimensions, UnknownDimensions),
      DetailImage(rec),
      Js.Or(rec.creditLine, NoDescription))
  }

  /** The detail page and the server pick opposite images when a record has two
      different ones, agree when it has at most one, and are empty together. */
  lemma ImagePreferenceReversed(rec: Catalog.CatalogRecord)
    ensures (Js.HasText(rec.primaryImage) && Js.HasText(rec.primaryImageSmall)
             && rec.primaryImage != rec.primaryImageSmall) ==> DetailImage(rec) != Catalog.ServerImage(rec)
    ensures !(Js.HasText(rec.primaryImage) && Js.HasText(rec.primaryImageSmall)) ==>
              DetailImage(rec) == Catalog.ServerImage(rec)
    ensures DetailImage(rec) == "" <==> Catalog.ServerImage(rec) == ""
  {
  }

  /** For a record the server lists, the detail page shows the same title and artist as
      the list item; its year differs only in the placeholder for a missing date. */
  lemma DetailAgreesWithList(id: string, rec: Catalog.CatalogRecord)
    requires Catalog.Project(id, rec).Some?
    ensures var item, v := Catalog.Project(id, rec).value, Detail(id, rec);
            && v.title == item.title
            && v.artist == item.artist
            && (item.year != "" ==> v.year == item.year)
            && (item.year == "" ==> v.year == UnknownYear)
  {
  }

  /** `formatNlDateTime(value)`: a falsy value gives `""`; text that is no date comes
      back as it was; a date is rendered by the locale formatter, here the oracle
      `format`, which answers `None` for text it cannot read as a date. */
  function FormatNlDateTime(value: Option<string>, format: string -> Option<string>): (r: string)
    ensures !Js.HasText(value) ==> r == ""
    ensures Js.HasText(value) && format(value.value).None? ==> r == value.value
    ensures Js.HasText(value) && format(value.value).Some? ==> r == format(value.value).value
  {
    if !Js.HasText(value) then ""
    else match format(value.value)
         case None => value.value
         case Some(shown) => shown
  }

  /** A comment as the page keeps it. */
  datatype ShownComment = ShownComment(id: int, text: string, dateTime: string)

  function ShowComment(format: string -> Option<string>): CommentsApi.CommentRow -> ShownComment {
    (row: CommentsApi.CommentRow) => ShownComment(row.id, row.text, FormatNlDateTime(Some(row.createdAt), format))
  }

  /** The mapping applied to the served comment list: one shown comment per row, in the
      served order. */
  function ShowComments(rows: seq<CommentsApi.CommentRow>, format: string -> Option<string>): (r: seq<ShownComment>)
    ensures |r| == |rows|
    ensures forall k :: 0 <= k < |rows| ==> r[k].id == rows[k].id && r[k].text == rows[k].text
    ensures forall k :: 0 <= k < |rows| ==> r[k].dateTime == FormatNlDateTime(Some(rows[k].createdAt), format)
  {
    Seqs.Map(ShowComment(format), rows)
  }

  /** The comment list and the text in the comment box. */
  datatype CommentBox = CommentBox(comments: seq<ShownComment>, draft: string)

  /** `handleSubmitComment`: a draft that is blank after trimming sends nothing. Otherwise
      the trimmed draft is posted (`post` is the server's answer to it); a saved comment
      is put first in the list and the box is cleared, and a failed post changes nothing.
      The second result is the text sent, if any. */
  function SubmitComment(box: CommentBox, post: string -> Reply<CommentsApi.CommentRow>,
                         format: string -> Option<string>): (r: (CommentBox, Option<string>))
    ensures Js.IsBlank(box.draft) ==> r == (box, None)
    ensures !Js.IsBlank(box.draft) ==> r.1 == Some(Js.Trim(box.draft))
    ensures !Js.IsBlank(box.draft) && post(Js.Trim(box.draft)).Fail? ==> r.0 == box
    ensures !Js.IsBlank(box.draft) && post(Js.Trim(box.draft)).Ok? ==>
              r.0 == CommentBox([ShowComment(format)(post(Js.Trim(box.draft)).body)] + box.comments, "")
  {
    var text := Js.Trim(box.draft);
    if text == "" then (box, None)
    else match post(text)
         case Fail(_, _) => (box, Some(text))
         case Ok(_, saved) => (CommentBox([ShowComment(format)(saved)] + box.comments, ""), Some(text))
  }

  /** The server accepts a non-blank trimmed draft and stores it unchanged. */
  lemma ServerKeepsTrimmedDraft(table: seq<CommentsApi.CommentRow>, metObjectId: string, draft: string, now: string)
    requires !Js.IsBlank(draft)
    ensures var step := CommentsApi.PostComment(table, metObjectId, Js.Str(Js.Trim(draft)), now);
            step.reply.Ok? && step.reply.body.text == Js.Trim(draft)
  {
    Js.TrimmedPassesCheck(draft);
  }

  /** The server's answer to posting `text` for the artwork, as the page receives it. */
  function ServerPost(table: seq<CommentsApi.CommentRow>, metObjectId: string, now: string): string -> Reply<CommentsApi.CommentRow> {
    (text: string) => CommentsApi.PostComment(table, metObjectId, Js.Str(text), now).reply
  }

  lemma PrependShown(row: CommentsApi.CommentRow, before: seq<CommentsApi.CommentRow>, format: string -> Option<string>)
    ensures ShowComments([row] + before, format) == [ShowComment(format)(row)] + ShowComments(before, format)
  {
    Seqs.MapAppend(ShowComment(format), [row], before);
    assert Seqs.Map(ShowComment(format), [row]) == [ShowComment(format)(row)];
  }

  /** Submitting against the server keeps the page in step with it: if the page showed
      the artwork's served comments before, after a successful submit it shows exactly
      what the server now serves, headed by the new comment, whose stored text is the
      trimmed draft (the server's second trim changes nothing). */
  lemma SubmitAgreesWithServer(box: CommentBox, table: seq<CommentsApi.CommentRow>, metObjectId: string,
                               now: string, format: string -> Option<string>)
    requires box.comments == ShowComments(CommentsApi.ListComments(table, metObjectId), format)
    requires !Js.IsBlank(box.draft)
    ensures var step := CommentsApi.PostComment(table, metObjectId, Js.Str(Js.Trim(box.draft)), now);
            && step.reply.Ok?
            && step.reply.body.text == Js.Trim(box.draft)
            && SubmitComment(box, ServerPost(table, metObjectId, now), format).0.comments
               == ShowComments(CommentsApi.ListComments(step.state, metObjectId), format)
  {
    var text := Js.Trim(box.draft);
    ServerKeepsTrimmedDraft(table, metObjectId, box.draft, now);
    var step := CommentsApi.PostComment(table, metObjectId, Js.Str(text), now);
    assert ServerPost(table, metObjectId, now)(text) == step.reply;
    CommentsApi.PostedCommentListedFirst(table, metObjectId, Js.Str(text), now);
    PrependShown(step.reply.body, CommentsApi.ListComments(table, metObjectId), format);
  }
}

=== FILE: catalog.dfy ===
/** The artwork resolver behind `GET /api/collections/:id/artworks` at
    backend/server.js:347-400: catalog ids are fetched in windows of six, each record is
    projected onto a display item, and items without an image are dropped. */
module Catalog {
  import opened Wrappers
  import Js
  import Seqs

  /** The fields of a catalog object record the application reads; each may be absent
      (or `null`) in the catalog's JSON. */
  datatype CatalogRecord = CatalogRecord(
    objectId: Option<int>,
    title: Option<string>,
    artistDisplayName: Option<string>,
    objectDate: Option<string>,
    primaryImage: Option<string>,
    primaryImageSmall: Option<string>,
    medium: Option<string>,
    dimensions: Option<string>,
    creditLine: Option<string>)

  /** What one catalog request comes to: the request or the JSON decoding rejects, the
      response is not 2xx, or a record arrives. */
  datatype FetchOutcome = Rejected | NotOk | Fetched(record: CatalogRecord)

  /** A display item as the resolver sends it. */
  datatype Artwork = Artwork(metObjectId: string, title: string, artist: string, year: string, image: string)

  /** At most this many catalog requests are in flight at once. */
  const WindowWidth := 6

  const DefaultArtist := "Onbekende kunstenaar"
  const ResolveFailedMessage := "Kon kunstwerken niet ophalen"

  /** The title used when the catalog gives none: "Kunstwerk #" and the requested id. */
  function DefaultTitle(id: string): string {
    "Kunstwerk #" + id
  }

  /** `primaryImageSmall || primaryImage || ""`. */
  function ServerImage(rec: CatalogRecord): (img: string)
    ensures Js.HasText(rec.primaryImageSmall) ==> img == rec.primaryImageSmall.value
    ensures !Js.HasText(rec.primaryImageSmall) && Js.HasText(rec.primaryImage) ==> img == rec.primaryImage.value
    ensures img == "" <==> !Js.HasText(rec.primaryImageSmall) && !Js.HasText(rec.primaryImage)
  {
    Js.Or(rec.primaryImageSmall, Js.Or(rec.primaryImage, ""))
  }

  /** `String(data.objectID)`: a missing id prints as "undefined". */
  function ObjectIdText(rec: CatalogRecord): string {
    match rec.objectId
    case None => Js.ToStr(Js.Undefined)
    case Some(n) => Js.ToStr(Js.Num(n))
  }

  /** The projection `fetchOne` applies to a fetched record of the requested `id`: no
      item without an image, otherwise an item whose fields fall back to their defaults. */
  function Project(id: string, rec: CatalogRecord): (r: Option<Artwork>)
    ensures r.None? <==> !Js.HasText(rec.primaryImageSmall) && !Js.HasText(rec.primaryImage)
    ensures r.Some? ==> r.value.image != "" && r.value.image == ServerImage(rec)
    ensures r.Some? ==> r.value.metObjectId == ObjectIdText(rec)
    ensures r.Some? ==> r.value.title == (if Js.HasText(rec.title) then rec.title.value else DefaultTitle(id))
    ensures r.Some? ==> r.value.artist == (if Js.HasText(rec.artistDisplayName) then rec.artistDisplayName.value else DefaultArtist)
    ensures r.Some? ==> r.value.year == (if Js.HasText(rec.objectDate) then rec.objectDate.value else "")
  {
    var img := ServerImage(rec);
    if img == "" then None
    else Some(Artwork(
      ObjectIdText(rec),
      Js.Or(rec.title, DefaultTitle(id)),
      Js.Or(rec.artistDisplayName, DefaultArtist),
      Js.Or(rec.objectDate, ""),
      img))
  }

  /** `fetchOne` for a request that did not reject: `null` for a non-2xx response. */
  function Lookup(fetch: string -> FetchOutcome): (r: string -> Option<Artwork>)
    ensures forall id :: !fetch(id).Fetched? ==> r(id).None?
    ensures forall id :: fetch(id).Fetched? ==>
              (r(id).Some? <==> Js.HasText(fetch(id).record.primaryImageSmall) || Js.HasText(fetch(id).record.primaryImage))
    ensures forall id :: r(id).Some? ==> r(id).value.image != ""
  {
    id => match fetch(id)
          case Fetched(rec) => Project(id, rec)
          case _ => None
  }

  /** Some request for `ids` rejects, which rejects the `Promise.all` of its window. */
  predicate AnyRejected(fetch: string -> FetchOutcome, ids: seq<string>) {
    exists i :: 0 <= i < |ids| && fetch(ids[i]).Rejected?
  }

  /** The resolver's reply without windows: a 500 when any request rejects, otherwise
      the surviving items in input order; no request at all for an empty id list. */
  function ResolveAll(fetch: string -> FetchOutcome, ids: seq<string>): (r: Reply<seq<Artwork>>)
    ensures r.Fail? <==> AnyRejected(fetch, ids)
    ensures r.Fail? ==> r.code == SERVER_ERROR && r.message == ResolveFailedMessage
    ensures r.Ok? ==> r.code == OK && |r.body| <= |ids|
    ensures ids == [] ==> r == Ok(OK, [])
  {
    if |ids| == 0 then Ok(OK, [])
    else if AnyRejected(fetch, ids) then Fail(SERVER_ERROR, ResolveFailedMessage)
    else Ok(OK, Seqs.FilterMap(Lookup(fetch), ids))
  }

  /** The resolved list is an order-preserving, filtered image of the id list: item `k`
      is the projection of the record fetched for id `idx[k]`, the positions `idx`
      increase, and every id whose record has an image contributes; so an id that gets a
      non-2xx response or an imageless record is dropped without aborting the rest. */
  lemma ResolvedInInputOrder(fetch: string -> FetchOutcome, ids: seq<string>)
    requires ResolveAll(fetch, ids).Ok?
    ensures var items, idx := ResolveAll(fetch, ids).body, Seqs.KeptIndices(Lookup(fetch), ids);
      && |idx| == |items|
      && (forall k :: 0 <= k < |idx| ==>
            idx[k] < |ids| && fetch(ids[idx[k]]).Fetched?
            && Project(ids[idx[k]], fetch(ids[idx[k]]).record) == Some(items[k]))
      && (forall k, l :: 0 <= k < l < |idx| ==> idx[k] < idx[l])
      && (forall i :: (0 <= i < |ids| && fetch(ids[i]).Fetched?
                       && Project(ids[i], fetch(ids[i]).record).Some?) ==> i in idx)
      && (forall k :: 0 <= k < |items| ==> items[k].image != "")
  {
    var items, idx := ResolveAll(fetch, ids).body, Seqs.KeptIndices(Lookup(fetch), ids);
    if ids != [] {
      Seqs.FilterMapOrderedImage(Lookup(fetch), ids);
      forall k | 0 <= k < |idx| ensures fetch(ids[idx[k]]).Fetched? {
        assert Lookup(fetch)(ids[idx[k]]).Some?;
      }
    }
  }

  /** A catalog that answers every requested id with a record carrying an image and that
      very id. */
  ghost predicate ServesAll(fetch: string -> FetchOutcome, ids: seq<string>) {
    forall i :: 0 <= i < |ids| ==>
      && fetch(ids[i]).Fetched?
      && ServerImage(fetch(ids[i]).record) != ""
      && ObjectIdText(fetch(ids[i]).record) == ids[i]
  }

  /** When nothing is dropped, the resolved items carry exactly the input ids, in input
      order. */
  lemma NothingDroppedKeepsIds(fetch: string -> FetchOutcome, ids: seq<string>)
    requires ServesAll(fetch, ids)
    ensures ResolveAll(fetch, ids).Ok?
    ensures Seqs.Map((a: Artwork) => a.metObjectId, ResolveAll(fetch, ids).body) == ids
  {
    if ids != [] {
      Seqs.FilterMapAllPresent(Lookup(fetch), ids);
    }
  }

  /** Where window `k` of `n` ids ends: six ids on, or at the end of the list. */
  function WindowEnd(n: nat, k: nat): nat {
    if (k + 1) * WindowWidth <= n then (k + 1) * WindowWidth else n
  }

  /** The windows `ids.slice(i, i + 6)` for i = 0, 6, 12, ... */
  function Windows(ids: seq<string>): seq<seq<string>>
    decreases |ids|
  {
    if ids == [] then []
    else if |ids| <= WindowWidth then [ids]
    else [ids[..WindowWidth]] + Windows(ids[WindowWidth..])
  }

  /** Window `k` is `ids.slice(6 * k, 6 * k + 6)`, and there are `ceil(|ids| / 6)` of them. */
  lemma {:induction false} WindowsAreSlices(ids: seq<string>)
    ensures |Windows(ids)| == (|ids| + WindowWidth - 1) / WindowWidth
    ensures forall k :: 0 <= k < |Windows(ids)| ==> Windows(ids)[k] == ids[k * WindowWidth..WindowEnd(|ids|, k)]
    decreases |ids|
  {
    if |ids| > WindowWidth {
      WindowsAreSlices(ids[WindowWidth..]);
      WindowsCons(ids, Windows(ids[WindowWidth..]));
    } else if ids != [] {
      assert ids[0..WindowEnd(|ids|, 0)] == ids;
    }
  }

  /** The first window in front of the windows of the remaining ids. */
  lemma WindowsCons(ids: seq<string>, rest: seq<seq<string>>)
    requires |ids| > WindowWidth
    requires |rest| == (|ids| - WindowWidth + WindowWidth - 1) / WindowWidth
    requires forall k :: 0 <= k < |rest| ==>
               rest[k] == ids[WindowWidth..][k * WindowWidth..WindowEnd(|ids| - WindowWidth, k)]
    ensures var r := [ids[..WindowWidth]] + rest;
            |r| == (|ids| + WindowWidth - 1) / WindowWidth &&
            forall k :: 0 <= k < |r| ==> r[k] == ids[k * WindowWidth..WindowEnd(|ids|, k)]
  {
    var r := [ids[..WindowWidth]] + rest;
    forall k | 0 <= k < |r|
      ensures r[k] == ids[k * WindowWidth..WindowEnd(|ids|, k)]
    {
      if k > 0 {
        var q := k - 1;
        assert r[k] == rest[q];
        assert WindowEnd(|ids| - WindowWidth, q) + WindowWidth == WindowEnd(|ids|, k);
        assert ids[WindowWidth..][q * WindowWidth..WindowEnd(|ids| - WindowWidth, q)]
            == ids[k * WindowWidth..WindowEnd(|ids|, k)];
      }
    }
  }

  /** The windows partition the ids: each is non-empty and at most six long, all but the
      last exactly six, and their concatenation is the id list. */
  lemma {:induction false} WindowsPartition(ids: seq<string>)
    ensures Seqs.Flatten(Windows(ids)) == ids
    ensures forall k :: 0 <= k < |Windows(ids)| ==> 0 < |Windows(ids)[k]| <= WindowWidth
    ensures forall k :: 0 <= k < |Windows(ids)| - 1 ==> |Windows(ids)[k]| == WindowWidth
    decreases |ids|
  {
    if |ids| > WindowWidth {
      WindowsPartition(ids[WindowWidth..]);
      var w := Windows(ids);
      assert w[1..] == Windows(ids[WindowWidth..]);
      assert ids == ids[..WindowWidth] + ids[WindowWidth..];
    } else if ids != [] {
      assert Seqs.Flatten([ids]) == ids + Seqs.Flatten([]);
    }
  }

  /** The next window of the loop starts at a multiple of six and is the first of the
      windows that remain. */
  lemma WindowsStep(ids: seq<string>, i: int)
    requires 0 <= i < |ids|
    ensures var end := if i + WindowWidth <= |ids| then i + WindowWidth else |ids|;
            Windows(ids[i..]) == [ids[i..end]] + Windows(ids[end..])
  {
    var end := if i + WindowWidth <= |ids| then i + WindowWidth else |ids|;
    if |ids[i..]| > WindowWidth {
      assert ids[i..][..WindowWidth] == ids[i..end];
      assert ids[i..][WindowWidth..] == ids[end..];
    } else {
      assert ids[i..end] == ids[i..];
      assert ids[end..] == [];
    }
  }

  lemma RejectedInInfix(fetch: string -> FetchOutcome, ids: seq<string>, i: int, end: int)
    requires 0 <= i <= end <= |ids|
    requires AnyRejected(fetch, ids[i..end])
    ensures AnyRejected(fetch, ids)
  {
    var j :| 0 <= j < end - i && fetch(ids[i..end][j]).Rejected?;
    assert ids[i + j] == ids[i..end][j];
  }

  lemma PrefixStep(fetch: string -> FetchOutcome, ids: seq<string>, i: int, end: int)
    requires 0 <= i <= end <= |ids|
    requires !AnyRejected(fetch, ids[..i]) && !AnyRejected(fetch, ids[i..end])
    ensures !AnyRejected(fetch, ids[..end])
    ensures Seqs.FilterMap(Lookup(fetch), ids[..end])
            == Seqs.FilterMap(Lookup(fetch), ids[..i]) + Seqs.FilterMap(Lookup(fetch), ids[i..end])
  {
    assert ids[..end] == ids[..i] + ids[i..end];
    Seqs.FilterMapAppend(Lookup(fetch), ids[..i], ids[i..end]);
    forall j | 0 <= j < end ensures !fetch(ids[..end][j]).Rejected? {
      if j < i {
        assert ids[..i][j] == ids[..end][j];
      } else {
        assert ids[i..end][j - i] == ids[..end][j];
      }
    }
  }

  lemma WindowPrefixBounded(ids: seq<string>, launched: seq<seq<string>>)
    requires launched <= Windows(ids)
    ensures forall k :: 0 <= k < |launched| ==> 0 < |launched[k]| <= WindowWidth
  {
    WindowsPartition(ids);
    assert forall k :: 0 <= k < |launched| ==> launched[k] == Windows(ids)[k];
  }

  /** What the resolver loop has established after the windows `launched`, which
      cover `ids[..i]`. */
  ghost predicate LoopState(fetch: string -> FetchOutcome, ids: seq<string>, i: int,
                            launched: seq<seq<string>>, results: seq<Artwork>) {
    && 0 <= i <= |ids|
    && launched + Windows(ids[i..]) == Windows(ids)
    && Seqs.Flatten(launched) == ids[..i]
    && !AnyRejected(fetch, ids[..i])
    && results == Seqs.FilterMap(Lookup(fetch), ids[..i])
  }

  /** The window a loop turn launches is the next of `Windows(ids)`, and the launched
      windows then cover the ids up to its end. */
  lemma WindowTurn(ids: seq<string>, i: int, launched: seq<seq<string>>, end: int)
    requires 0 <= i < |ids|
    requires launched + Windows(ids[i..]) == Windows(ids) && Seqs.Flatten(launched) == ids[..i]
    requires end == if i + WindowWidth <= |ids| then i + WindowWidth else |ids|
    ensures launched + [ids[i..end]] + Windows(ids[end..]) == Windows(ids)
    ensures launched + [ids[i..end]] <= Windows(ids)
    ensures Seqs.Flatten(launched + [ids[i..end]]) == ids[..end]
  {
    WindowsStep(ids, i);
    Seqs.FlattenSnoc(launched, ids[i..end]);
    assert launched + [ids[i..end]] + Windows(ids[end..]) == launched + ([ids[i..end]] + Windows(ids[end..]));
    assert ids[..i] + ids[i..end] == ids[..end];
  }

  /** One turn of the loop: the next window is the first remaining one; if none of its
      requests rejects, the loop state advances past it. */
  lemma LoopTurn(fetch: string -> FetchOutcome, ids: seq<string>, i: int,
                 launched: seq<seq<string>>, results: seq<Artwork>, end: int)
    requires LoopState(fetch, ids, i, launched, results) && i < |ids|
    requires end == if i + WindowWidth <= |ids| then i + WindowWidth else |ids|
    ensures launched + [ids[i..end]] <= Windows(ids)
    ensures Seqs.Flatten(launched) == ids[..i]
    ensures AnyRejected(fetch, ids[i..end]) ==> AnyRejected(fetch, ids)
    ensures !AnyRejected(fetch, ids[i..end]) ==>
              LoopState(fetch, ids, end, launched + [ids[i..end]],
                        results + Seqs.FilterMap(Lookup(fetch), ids[i..end]))
  {
    WindowTurn(ids, i, launched, end);
    if AnyRejected(fetch, ids[i..end]) {
      RejectedInInfix(fetch, ids, i, end);
    } else {
      PrefixStep(fetch, ids, i, end);
    }
  }

  /** The loop ran to the end: every window was launched and the results are the
      whole resolved list. */
  lemma LoopDone(fetch: string -> FetchOutcome, ids: seq<string>, launched: seq<seq<string>>, results: seq<Artwork>)
    requires ids != [] && LoopState(fetch, ids, |ids|, launched, results)
    ensures launched == Windows(ids) && ResolveAll(fetch, ids) == Ok(OK, results)
    ensures forall k :: 0 <= k < |launched| ==> 0 < |launched[k]| <= WindowWidth
  {
    assert ids[..|ids|] == ids && ids[|ids|..] == [];
    WindowPrefixBounded(ids, launched);
  }

  /** The loop stopped at a window with a rejected request. */
  lemma LoopAborted(fetch: string -> FetchOutcome, ids: seq<string>, launched: seq<seq<string>>)
    requires launched != [] && launched <= Windows(ids) && AnyRejected(fetch, ids)
    ensures ResolveAll(fetch, ids) == Fail(SERVER_ERROR, ResolveFailedMessage)
    ensures forall k :: 0 <= k < |launched| ==> 0 < |launched[k]| <= WindowWidth
  {
    WindowPrefixBounded(ids, launched);
  }

  /** The loop of the resolver handler: windows are requested one after another and
      each window's items are filtered and appended, until a window has a rejected
      request (`stopped`) or the ids run out. */
  method LaunchWindows(fetch: string -> FetchOutcome, ids: seq<string>)
    returns (launched: seq<seq<string>>, results: seq<Artwork>, stopped: bool)
    ensures stopped ==> && launched != [] && launched <= Windows(ids) && AnyRejected(fetch, ids)
                        && AnyRejected(fetch, launched[|launched| - 1])
                        && !AnyRejected(fetch, Seqs.Flatten(launched[..|launched| - 1]))
    ensures !stopped ==> LoopState(fetch, ids, |ids|, launched, results)
  {
    launched, results, stopped := [], [], false;
    var i := 0;
    while i < |ids|
      invariant LoopState(fetch, ids, i, launched, results)
      decreases |ids| - i
    {
      // `i += limit` overshoots on the last window; stopping at the end is the same exit.
      var end := if i + WindowWidth <= |ids| then i + WindowWidth else |ids|;
      var window := ids[i..end];
      LoopTurn(fetch, ids, i, launched, results, end);
      if AnyRejected(fetch, window) {
        var before := launched;
        launched := launched + [window];
        assert launched[..|launched| - 1] == before;
        return launched, results, true;
      }
      launched := launched + [window];
      results := results + Seqs.FilterMap(Lookup(fetch), window);
      i := end;
    }
  }

  /** The resolver as written. Besides the reply it returns the windows it launched,
      which bounds the number of concurrent catalog requests. */
  method ResolveInWindows(fetch: string -> FetchOutcome, ids: seq<string>)
    returns (reply: Reply<seq<Artwork>>, launched: seq<seq<string>>)
    ensures reply == ResolveAll(fetch, ids)
    ensures forall k :: 0 <= k < |launched| ==> 0 < |launched[k]| <= WindowWidth
    ensures launched <= Windows(ids)
    ensures reply.Ok? ==> launched == Windows(ids)
    ensures reply.Fail? ==> launched != [] && AnyRejected(fetch, launched[|launched| - 1])
                            && !AnyRejected(fetch, Seqs.Flatten(launched[..|launched| - 1]))
  {
    if |ids| == 0 {
      return Ok(OK, []), [];
    }
    var results, stopped;
    launched, results, stopped := LaunchWindows(fetch, ids);
    if stopped {
      LoopAborted(fetch, ids, launched);
      return Fail(SERVER_ERROR, ResolveFailedMessage), launched;
    }
    LoopDone(fetch, ids, launched, results);
    return Ok(OK, results), launched;
  }
}

=== FILE: collection_page.dfy ===
/** The collection detail page of frontend/src/pages/CollectionPage.jsx: it loads
    `GET /api/collections/:id/artworks`, normalises the items it finds, and filters them
    by a title query and an artist query. */
module CollectionPage {
  import opened Wrappers
  import Js
  import Seqs
  import Catalog
  import CollectionsApi
  import Links

  const FallbackImage := "src/assets/images/artwork_fallback.png"
  const LoadFailedMessage := "Kon kunstwerken niet ophalen"

  /** The title shown before, or instead of, a served collection name. */
  function DefaultName(id: string): string {
    "Collectie #" + id
  }

  /** An item of a served list as the page reads it: `met_object_id` may be any scalar,
      the text fields may be absent. */
  datatype ListedArtwork = ListedArtwork(
    metObjectId: Js.Value, title: Option<string>, artist: Option<string>,
    year: Option<string>, image: Option<string>)

  /** An item after normalisation: the id is text and the image is never empty. */
  datatype ShownArtwork = ShownArtwork(
    metObjectId: string, title: Option<string>, artist: Option<string>,
    year: Option<string>, image: string)

  /** A decoded response body: a JSON object with (maybe) `collectionName` and
      `artworks` members, or a JSON array, on which both members read as `undefined`. */
  datatype Body =
    | ObjectBody(collectionName: Option<string>, artworks: Option<seq<ListedArtwork>>)
    | ArrayBody(items: seq<ListedArtwork>)

  datatype PageState = PageState(collectionName: string, artworks: seq<ShownArtwork>, error: Option<string>)

  /** The per-item normalisation: the id through `String(...)`, an empty or missing image
      replaced by the fallback picture, the other fields passed on. */
  function Normalize(a: ListedArtwork): (r: ShownArtwork)
    ensures r.metObjectId == Js.ToStr(a.metObjectId)
    ensures r.image != ""
    ensures Js.HasText(a.image) ==> r.image == a.image.value
    ensures !Js.HasText(a.image) ==> r.image == FallbackImage
    ensures r.title == a.title && r.artist == a.artist && r.year == a.year
  {
    ShownArtwork(Js.ToStr(a.metObjectId), a.title, a.artist, a.year, Js.Or(a.image, FallbackImage))
  }

  function NormalizeAll(list: seq<ListedArtwork>): (r: seq<ShownArtwork>)
    ensures |r| == |list|
    ensures forall k :: 0 <= k < |list| ==> r[k] == Normalize(list[k])
  {
    Seqs.Map(Normalize, list)
  }

  /** The list the page takes from a body as written: `data.artworks` when it is an
      array, otherwise nothing. */
  function ArtworkList(body: Body): (r: seq<ListedArtwork>)
    ensures body.ArrayBody? ==> r == []
    ensures body.ObjectBody? && body.artworks.None? ==> r == []
    ensures body.ObjectBody? && body.artworks.Some? ==> r == body.artworks.value
  {
    match body
    case ObjectBody(_, Some(list)) => list
    case _ => []
  }

  /** The list the page evidently means to take: the served array itself, or an
      `artworks` member when the body is an object. */
  function ArtworkListFixed(body: Body): (r: seq<ListedArtwork>)
    ensures body.ArrayBody? ==> r == body.items
    ensures body.ObjectBody? ==> r == ArtworkList(body)
  {
    match body
    case ArrayBody(items) => items
    case ObjectBody(_, Some(list)) => list
    case _ => []
  }

  /** The load effect for a response, given the way the list is read from the body:
      a non-2xx response leaves the default title and an empty list and shows the
      error; a 2xx body sets the title (`collectionName || default`) and the list. */
  function LoadWith(id: string, response: Reply<Body>, pick: Body -> seq<ListedArtwork>): (r: PageState)
    ensures response.Fail? ==> r == PageState(DefaultName(id), [], Some(LoadFailedMessage))
    ensures response.Ok? ==> r.error.None? && r.artworks == NormalizeAll(pick(response.body))
    ensures response.Ok? && response.body.ObjectBody? ==> r.collectionName == Js.Or(response.body.collectionName, DefaultName(id))
    ensures response.Ok? && response.body.ArrayBody? ==> r.collectionName == DefaultName(id)
  {
    match response
    case Fail(_, _) => PageState(DefaultName(id), [], Some(LoadFailedMessage))
    case Ok(_, body) =>
      var name := if body.ObjectBody? then body.collectionName else None;
      PageState(Js.Or(name, DefaultName(id)), NormalizeAll(pick(body)), None)
  }

  /** The page as written: a failed request shows the error, and a bare array or an
      object without `artworks` leaves the page empty without any error. */
  function Load(id: string, response: Reply<Body>): (r: PageState)
    ensures r.error.Some? <==> response.Fail?
    ensures response.Ok? && response.body.ArrayBody? ==> r.artworks == []
    ensures response.Ok? && response.body.ObjectBody? && response.body.artworks.None? ==> r.artworks == []
    ensures response.Ok? && response.body.ObjectBody? && response.body.artworks.Some? ==>
              r.artworks == NormalizeAll(response.body.artworks.value)
  {
    LoadWith(id, response, ArtworkList)
  }

  /** The page with the list read as intended: a bare array is shown as the list, and
      on every other response the page matches the page as written. */
  function LoadFixed(id: string, response: Reply<Body>): (r: PageState)
    ensures r.error.Some? <==> response.Fail?
    ensures response.Ok? && response.body.ArrayBody? ==> r.artworks == NormalizeAll(response.body.items)
    ensures !(response.Ok? && response.body.ArrayBody?) ==> r == Load(id, response)
  {
    LoadWith(id, response, ArtworkListFixed)
  }

  /** The JSON the id-list handler (backend/server.js:49) sends, as the page decodes it:
      an object with a name and `metObjectIds`, but no `artworks` member. */
  function IdListAsBody(b: CollectionsApi.IdListBody): Body {
    ObjectBody(Some(b.collectionName), None)
  }

  /** A resolved item as the page decodes it. */
  function Listed(a: Catalog.Artwork): ListedArtwork {
    ListedArtwork(Js.Str(a.metObjectId), Some(a.title), Some(a.artist), Some(a.year), Some(a.image))
  }

  /** The JSON the resolver handler (backend/server.js:347) sends: a bare array. */
  function ResolvedAsBody(items: seq<Catalog.Artwork>): Body {
    ArrayBody(Seqs.Map(Listed, items))
  }

  function AsResponse<T>(reply: Reply<T>, decode: T -> Body): Reply<Body> {
    match reply
    case Ok(code, body) => Ok(code, decode(body))
    case Fail(code, message) => Fail(code, message)
  }

  /** As written, neither handler's reply ever puts an artwork on the page: the id list
      has no `artworks` member and the resolved array has none either. */
  lemma ServedArtworksNeverListed(collections: seq<CollectionsApi.CollectionRow>, links: seq<Links.LinkRow>,
                                  cid: int, id: string, fetch: string -> Catalog.FetchOutcome)
    ensures Load(id, AsResponse(CollectionsApi.IdListReply(collections, links, cid), IdListAsBody)).artworks == []
    ensures Load(id, AsResponse(Catalog.ResolveAll(fetch, CollectionsApi.ResolverIds(links, cid)), ResolvedAsBody)).artworks == []
  {
  }

  /** With the list read as intended, the page shows exactly the resolved artworks, in
      the order served, each with its own id and its own (never replaced) image. */
  lemma ServedArtworksListed(links: seq<Links.LinkRow>, cid: int, id: string, fetch: string -> Catalog.FetchOutcome)
    requires Catalog.ResolveAll(fetch, CollectionsApi.ResolverIds(links, cid)).Ok?
    ensures var served := Catalog.ResolveAll(fetch, CollectionsApi.ResolverIds(links, cid)).body;
            var shown := LoadFixed(id, AsResponse(Catalog.ResolveAll(fetch, CollectionsApi.ResolverIds(links, cid)), ResolvedAsBody)).artworks;
            |shown| == |served| &&
            forall k :: 0 <= k < |served| ==>
              shown[k].metObjectId == served[k].metObjectId && shown[k].image == served[k].image &&
              shown[k].title == Some(served[k].title) && shown[k].artist == Some(served[k].artist)
  {
    var ids := CollectionsApi.ResolverIds(links, cid);
    Catalog.ResolvedInInputOrder(fetch, ids);
    ShowsResolved(Catalog.ResolveAll(fetch, ids).body, id);
  }

  /** Resolved items with images reach the page unchanged. */
  lemma ShowsResolved(served: seq<Catalog.Artwork>, id: string)
    requires forall k :: 0 <= k < |served| ==> served[k].image != ""
    ensures var shown := LoadFixed(id, Ok(OK, ResolvedAsBody(served))).artworks;
            |shown| == |served| &&
            forall k :: 0 <= k < |served| ==>
              shown[k].metObjectId == served[k].metObjectId && shown[k].image == served[k].image &&
              shown[k].title == Some(served[k].title) && shown[k].artist == Some(served[k].artist)
  {
    var shown := LoadFixed(id, Ok(OK, ResolvedAsBody(served))).artworks;
    assert shown == NormalizeAll(Seqs.Map(Listed, served));
  }

  /** One search box: an empty (after `trim`) query lets everything through; otherwise
      the lower-cased field, read as `""` when missing, must contain the lower-cased,
      trimmed query. */
  predicate FieldMatches(field: Option<string>, query: string) {
    var q := Js.ToLower(Js.Trim(query));
    q == "" || Js.Includes(Js.ToLower(Js.Or(field, "")), q)
  }

  predicate Matches(qTitle: string, qArtist: string, x: ShownArtwork) {
    FieldMatches(x.title, qTitle) && FieldMatches(x.artist, qArtist)
  }

  /** The `filtered` list: the artworks that match both queries, in page order. */
  function Visible(artworks: seq<ShownArtwork>, qTitle: string, qArtist: string): (r: seq<ShownArtwork>)
    ensures forall i :: 0 <= i < |artworks| ==> (artworks[i] in r <==> Matches(qTitle, qArtist, artworks[i]))
    ensures forall k :: 0 <= k < |r| ==> r[k] in artworks
    ensures Js.IsBlank(qTitle) && Js.IsBlank(qArtist) ==> r == artworks
  {
    var p := (x: ShownArtwork) => Matches(qTitle, qArtist, x);
    if Js.IsBlank(qTitle) && Js.IsBlank(qArtist) then
      Seqs.FilterAllPass(p, artworks);
      Seqs.Filter(p, artworks)
    else
      Seqs.Filter(p, artworks)
  }

  /** The visible artworks keep the page's order: they sit at strictly increasing
      positions of the full list. */
  lemma VisibleInOrder(artworks: seq<ShownArtwork>, qTitle: string, qArtist: string)
    ensures var p := (x: ShownArtwork) => Matches(qTitle, qArtist, x);
            var r, idx := Visible(artworks, qTitle, qArtist), Seqs.KeptIndices(Seqs.Guard(p), artworks);
            |idx| == |r|
            && (forall k :: 0 <= k < |idx| ==> idx[k] < |artworks| && artworks[idx[k]] == r[k])
            && (forall k, l :: 0 <= k < l < |idx| ==> idx[k] < idx[l])
  {
    var p := (x: ShownArtwork) => Matches(qTitle, qArtist, x);
    assert Visible(artworks, qTitle, qArtist) == Seqs.Filter(p, artworks);
    Seqs.FilterInOrder(p, artworks);
  }

  /** An artwork without a title (or with an empty one) disappears as soon as the title
      query holds anything but white space; likewise for the artist. */
  lemma MissingFieldHidden(x: ShownArtwork, qTitle: string, qArtist: string)
    ensures !Js.IsBlank(qTitle) && !Js.HasText(x.title) ==> !Matches(qTitle, qArtist, x)
    ensures !Js.IsBlank(qArtist) && !Js.HasText(x.artist) ==> !Matches(qTitle, qArtist, x)
  {
    Js.IncludesEmpty("", Js.ToLower(Js.Trim(qTitle)));
    Js.IncludesEmpty("", Js.ToLower(Js.Trim(qArtist)));
    assert Js.ToLower("") == "";
  }

  lemma InfixIncluded(hay: string, needle: string, i: nat)
    requires i + |needle| <= |hay| && hay[i..i + |needle|] == needle
    ensures Js.Includes(hay, needle)
  {
    assert Js.OccursAt(hay, needle, i);
    Js.IncludesMeansOccurs(hay, needle);
  }

  /** Lower-casing keeps a stretch of a text a stretch of the lower-cased text. */
  lemma LowerInfixIncluded(s: string, t: string, i: nat)
    requires i + |t| <= |s| && t == s[i..i + |t|]
    ensures Js.Includes(Js.ToLower(s), Js.ToLower(t))
  {
    var hay, needle := Js.ToLower(s), Js.ToLower(t);
    assert hay[i..i + |needle|] == needle;
    InfixIncluded(hay, needle, i);
  }

  /** A text contains its own trimmed form, lower-cased on both sides. */
  lemma OwnTrimIncluded(s: string)
    ensures Js.Includes(Js.ToLower(s), Js.ToLower(Js.Trim(s)))
  {
    var i :| Js.CutAt(s, Js.Trim(s), i);
    LowerInfixIncluded(s, Js.Trim(s), i);
  }

  /** Searching for an item's own title, whatever its case and surrounding white space,
      finds the item. */
  lemma OwnTitleFindsItem(x: ShownArtwork)
    requires x.title.Some?
    ensures FieldMatches(x.title, x.title.value)
  {
    var s := x.title.value;
    if s != "" {
      assert Js.Or(x.title, "") == s;
      OwnTrimIncluded(s);
    }
  }
}

=== FILE: collections_api.dfy ===
/** The collection endpoints of backend/server.js: the public listing with its published
    filter, the administrator's create, update, publish and delete handlers, and the two
    handlers registered for `GET /api/collections/:id/artworks`. */
module CollectionsApi {
  import opened Wrappers
  import Js
  import Seqs
  import Links
  import Catalog
  import Sorting
  import Sqlite

  /** A row of `collections`. Description, category and cover keep whatever JSON value
      the request carried; timestamps are not modelled. */
  datatype CollectionRow = CollectionRow(
    id: int,
    name: string,
    description: Js.Value,
    category: Js.Value,
    coverImageUrl: Js.Value,
    isPublished: int)

  /** The JSON body of a create or update request. */
  datatype CollectionInput = CollectionInput(
    name: Js.Value,
    description: Js.Value,
    category: Js.Value,
    coverImageUrl: Js.Value,
    isPublished: Js.Value)

  const NameRequired := "Naam is verplicht"
  const CreateFailed := "Kon collectie niet toevoegen"
  const UpdateFailed := "Kon collectie niet bijwerken"
  const NotFoundMessage := "Collectie niet gevonden"

  /** Row ids ascend through the table, as SQLite rowids do in insertion order. */
  predicate IdsAscending(table: seq<CollectionRow>) {
    forall i, j :: 0 <= i < j < |table| ==> table[i].id < table[j].id
  }

  /** The invariant the administrator endpoints keep: ascending ids, a trimmed non-blank
      name on every row, and a publication flag that is 0 or 1. */
  predicate WellFormed(table: seq<CollectionRow>) {
    && IdsAscending(table)
    && forall k :: 0 <= k < |table| ==> RowWellFormed(table[k])
  }

  predicate RowWellFormed(row: CollectionRow) {
    && !Js.IsBlank(row.name)
    && Js.Trim(row.name) == row.name
    && (row.isPublished == 0 || row.isPublished == 1)
  }

  lemma AppendKeepsWellFormed(table: seq<CollectionRow>, row: CollectionRow)
    requires RowWellFormed(row) && row.id == NextId(table)
    ensures WellFormed(table) ==> WellFormed(table + [row])
  {
    if WellFormed(table) {
      AppendKeepsAscending(table, row);
      AppendKeepsRows(table, row);
    }
  }

  lemma AppendKeepsAscending(table: seq<CollectionRow>, row: CollectionRow)
    requires IdsAscending(table) && forall k :: 0 <= k < |table| ==> table[k].id < row.id
    ensures IdsAscending(table + [row])
  {
    var next := table + [row];
    forall i, j | 0 <= i < j < |next| ensures next[i].id < next[j].id {
      assert next[i] == table[i];
    }
  }

  lemma AppendKeepsRows(table: seq<CollectionRow>, row: CollectionRow)
    requires RowWellFormed(row) && forall k :: 0 <= k < |table| ==> RowWellFormed(table[k])
    ensures forall k :: 0 <= k < |table| + 1 ==> RowWellFormed((table + [row])[k])
  {
    var next := table + [row];
    forall k | 0 <= k < |next| ensures RowWellFormed(next[k]) {
      if k < |table| {
        assert next[k] == table[k];
      }
    }
  }

  lemma UpdateKeepsWellFormed(table: seq<CollectionRow>, next: seq<CollectionRow>)
    requires |next| == |table|
    requires forall k :: 0 <= k < |table| ==> next[k].id == table[k].id
    requires forall k :: 0 <= k < |table| ==> RowWellFormed(table[k]) ==> RowWellFormed(next[k])
    ensures WellFormed(table) ==> WellFormed(next)
  {
  }

  function RowId(row: CollectionRow): int {
    row.id
  }

  /** The id of the next inserted collection: fresh, and 1 in an empty table. */
  function NextId(table: seq<CollectionRow>): (r: int)
    ensures forall k :: 0 <= k < |table| ==> table[k].id < r
    ensures table == [] ==> r == 1
  {
    var ids := Seqs.Map(RowId, table);
    assert forall k :: 0 <= k < |table| ==> table[k].id == ids[k];
    Sqlite.NextRowId(ids)
  }

  /** `SELECT ... WHERE id = ?`: the row with that id, if any. */
  function Find(table: seq<CollectionRow>, id: int): (r: Option<CollectionRow>)
    ensures r.Some? ==> r.value in table && r.value.id == id
    ensures r.None? ==> forall k :: 0 <= k < |table| ==> table[k].id != id
  {
    if table == [] then None
    else if table[0].id == id then Some(table[0])
    else Find(table[1..], id)
  }

  /** `GET /api/collections`: every row in id order, or with `?published=true` exactly
      the published rows. Any other query value lists everything. */
  function ListCollections(table: seq<CollectionRow>, published: Option<string>): (r: seq<CollectionRow>)
    ensures forall k :: 0 <= k < |r| ==> r[k] in table
    ensures published == Some("true") ==>
              forall i :: 0 <= i < |table| ==> (table[i] in r <==> table[i].isPublished == 1)
    ensures published != Some("true") ==> r == table
    ensures IdsAscending(table) ==> IdsAscending(r)
  {
    if published == Some("true") then
      var r := Seqs.Filter((row: CollectionRow) => row.isPublished == 1, table);
      FilterKeepsAscending(table, (row: CollectionRow) => row.isPublished == 1);
      r
    else table
  }

  lemma FilterKeepsAscending(table: seq<CollectionRow>, p: CollectionRow -> bool)
    ensures IdsAscending(table) ==> IdsAscending(Seqs.Filter(p, table))
  {
    if IdsAscending(table) {
      var g := Seqs.Guard(p);
      Seqs.FilterMapOrderedImage(g, table);
      var r, idx := Seqs.Filter(p, table), Seqs.KeptIndices(g, table);
      forall k | 0 <= k < |r| ensures r[k] == table[idx[k]] {
        assert g(table[idx[k]]) == Some(r[k]);
      }
    }
  }

  /** `GET /api/admin/collections`: every row, newest id first. */
  function AdminListCollections(table: seq<CollectionRow>): (r: seq<CollectionRow>)
    ensures multiset(r) == multiset(table)
    ensures IdsAscending(table) ==> forall i, j :: 0 <= i < j < |r| ==> r[i].id > r[j].id
  {
    ReverseIsPermutation(table);
    Seqs.Reverse(table)
  }

  lemma {:induction false} ReverseIsPermutation<T>(s: seq<T>)
    ensures multiset(Seqs.Reverse(s)) == multiset(s)
  {
    if s != [] {
      var last := s[|s| - 1];
      var init := s[..|s| - 1];
      assert s == init + [last];
      ReverseIsPermutation(init);
      Seqs.ReverseSnoc(init, last);
    }
  }

  /** The optional text fields after `?? ""` can be bound as statement parameters: none
      of them is a boolean. */
  predicate Storable(body: CollectionInput) {
    && Sqlite.Bindable(Js.Coalesce(body.description, ""))
    && Sqlite.Bindable(Js.Coalesce(body.category, ""))
    && Sqlite.Bindable(Js.Coalesce(body.coverImageUrl, ""))
  }

  /** A body is storable exactly when none of its optional text fields is a boolean. */
  lemma StorableUnlessBoolean(body: CollectionInput)
    ensures Storable(body) <==> !body.description.Bool? && !body.category.Bool? && !body.coverImageUrl.Bool?
  {
  }

  /** `POST /api/admin/collections`. A name that passes the check but a boolean
      description, category or cover makes the insert throw: 500. */
  function CreateCollection(table: seq<CollectionRow>, body: CollectionInput): (r: Step<seq<CollectionRow>, CollectionRow>)
    ensures r.reply.Fail? ==> r.state == table
    ensures Js.CheckRequired(body.name).Missing? ==> r.reply == Fail(BAD_REQUEST, NameRequired)
    ensures Js.CheckRequired(body.name).NotText? ==> r.reply == Fail(SERVER_ERROR, CreateFailed)
    ensures Js.CheckRequired(body.name).Given? && !Storable(body) ==> r.reply == Fail(SERVER_ERROR, CreateFailed)
    ensures r.reply.Ok? <==> Js.CheckRequired(body.name).Given? && Storable(body)
    ensures r.reply.Ok? ==>
              && r.reply.code == CREATED
              && r.state == table + [r.reply.body]
              && r.reply.body.id == NextId(table)
              && r.reply.body.name == Js.Trim(body.name.s)
              && r.reply.body.description == Js.Coalesce(body.description, "")
              && r.reply.body.category == Js.Coalesce(body.category, "")
              && r.reply.body.coverImageUrl == Js.Coalesce(body.coverImageUrl, "")
              && r.reply.body.isPublished == Js.Flag(body.isPublished)
    ensures WellFormed(table) ==> WellFormed(r.state)
  {
    match Js.CheckRequired(body.name)
    case Missing => Step(table, Fail(BAD_REQUEST, NameRequired))
    case NotText => Step(table, Fail(SERVER_ERROR, CreateFailed))
    case Given(name) =>
      if !Storable(body) then Step(table, Fail(SERVER_ERROR, CreateFailed))
      else
        var row := CollectionRow(
          NextId(table), name,
          Js.Coalesce(body.description, ""),
          Js.Coalesce(body.category, ""),
          Js.Coalesce(body.coverImageUrl, ""),
          Js.Flag(body.isPublished));
        AppendKeepsWellFormed(table, row);
        Step(table + [row], Ok(CREATED, row))
  }

  /** The rows with `id` rewritten by `f`; every other row untouched. */
  function UpdateWhere(table: seq<CollectionRow>, id: int, f: CollectionRow -> CollectionRow): (r: seq<CollectionRow>)
    ensures |r| == |table|
    ensures forall k :: 0 <= k < |table| ==> r[k] == if table[k].id == id then f(table[k]) else table[k]
  {
    Seqs.Map((row: CollectionRow) => if row.id == id then f(row) else row, table)
  }

  /** The edit an update makes to the row it matches: the name becomes the trimmed
      name, the other text fields `?? ""`; the id and the publication flag stay. */
  predicate Revised(before: CollectionRow, after: CollectionRow, name: string, body: CollectionInput) {
    after == before.(name := name, description := Js.Coalesce(body.description, ""),
                     category := Js.Coalesce(body.category, ""),
                     coverImageUrl := Js.Coalesce(body.coverImageUrl, ""))
  }

  /** `PUT /api/admin/collections/:id`. An unknown id changes nothing and answers 200 with
      an empty body; a boolean description, category or cover makes the update throw: 500. */
  function UpdateCollection(table: seq<CollectionRow>, id: int, body: CollectionInput): (r: Step<seq<CollectionRow>, Option<CollectionRow>>)
    ensures r.reply.Fail? ==> r.state == table
    ensures Js.CheckRequired(body.name).Missing? ==> r.reply == Fail(BAD_REQUEST, NameRequired)
    ensures Js.CheckRequired(body.name).NotText? ==> r.reply == Fail(SERVER_ERROR, UpdateFailed)
    ensures Js.CheckRequired(body.name).Given? && !Storable(body) ==> r.reply == Fail(SERVER_ERROR, UpdateFailed)
    ensures r.reply.Ok? <==> Js.CheckRequired(body.name).Given? && Storable(body)
    ensures r.reply.Ok? ==> r.reply.code == OK && |r.state| == |table|
    ensures r.reply.Ok? ==> forall k :: 0 <= k < |table| ==>
              if table[k].id == id then Revised(table[k], r.state[k], Js.Trim(body.name.s), body)
              else r.state[k] == table[k]
    ensures r.reply.Ok? ==> (r.reply.body.None? <==> Find(table, id).None?)
    ensures WellFormed(table) ==> WellFormed(r.state)
  {
    match Js.CheckRequired(body.name)
    case Missing => Step(table, Fail(BAD_REQUEST, NameRequired))
    case NotText => Step(table, Fail(SERVER_ERROR, UpdateFailed))
    case Given(name) =>
      if !Storable(body) then Step(table, Fail(SERVER_ERROR, UpdateFailed))
      else ApplyUpdate(table, id, name, body)
  }

  /** The update statement once the name has passed the check. */
  function ApplyUpdate(table: seq<CollectionRow>, id: int, name: string, body: CollectionInput): (r: Step<seq<CollectionRow>, Option<CollectionRow>>)
    requires !Js.IsBlank(name) && Js.Trim(name) == name
    ensures r.reply.Ok? && r.reply.code == OK && |r.state| == |table|
    ensures forall k :: 0 <= k < |table| ==>
              if table[k].id == id then Revised(table[k], r.state[k], name, body)
              else r.state[k] == table[k]
    ensures r.reply.body.None? <==> Find(table, id).None?
    ensures WellFormed(table) ==> WellFormed(r.state)
  {
    var next := UpdateWhere(table, id, Revision(name, body));
    RevisionKeepsRows(table, id, name, body);
    FindAfterUpdate(table, id, next);
    UpdateKeepsWellFormed(table, next);
    Step(next, Ok(OK, Find(next, id)))
  }

  /** The row edit of an update. */
  function Revision(name: string, body: CollectionInput): CollectionRow -> CollectionRow {
    (row: CollectionRow) => row.(
      name := name,
      description := Js.Coalesce(body.description, ""),
      category := Js.Coalesce(body.category, ""),
      coverImageUrl := Js.Coalesce(body.coverImageUrl, ""))
  }

  /** Revising the matching rows keeps ids and the row invariant, and is the edit
      `Revised` describes. */
  lemma RevisionKeepsRows(table: seq<CollectionRow>, id: int, name: string, body: CollectionInput)
    requires !Js.IsBlank(name) && Js.Trim(name) == name
    ensures var next := UpdateWhere(table, id, Revision(name, body));
            && (forall k :: 0 <= k < |table| ==> next[k].id == table[k].id)
            && (forall k :: 0 <= k < |table| ==> RowWellFormed(table[k]) ==> RowWellFormed(next[k]))
            && (forall k :: 0 <= k < |table| && table[k].id == id ==> Revised(table[k], next[k], name, body))
  {
    var next := UpdateWhere(table, id, Revision(name, body));
    forall k | 0 <= k < |table|
      ensures next[k].id == table[k].id
      ensures RowWellFormed(table[k]) ==> RowWellFormed(next[k])
      ensures table[k].id == id ==> Revised(table[k], next[k], name, body)
    {
      if table[k].id == id {
        RevisedRow(table[k], name, body);
      }
    }
  }

  lemma RevisedRow(row: CollectionRow, name: string, body: CollectionInput)
    requires !Js.IsBlank(name) && Js.Trim(name) == name
    ensures Revised(row, Revision(name, body)(row), name, body)
    ensures RowWellFormed(row) ==> RowWellFormed(Revision(name, body)(row))
  {
  }

  lemma FindAfterUpdate(table: seq<CollectionRow>, id: int, next: seq<CollectionRow>)
    requires |next| == |table| && forall k :: 0 <= k < |table| ==> next[k].id == table[k].id
    ensures Find(next, id).None? <==> Find(table, id).None?
  {
    if Find(table, id).Some? {
      var k :| 0 <= k < |table| && table[k] == Find(table, id).value;
      assert next[k].id == id;
    }
  }

  /** `PATCH /api/admin/collections/:id/publish`: the flag becomes `is_published ? 1 : 0`;
      nothing else changes. */
  function SetPublished(table: seq<CollectionRow>, id: int, isPublished: Js.Value): (r: Step<seq<CollectionRow>, Option<CollectionRow>>)
    ensures r.reply.Ok? && r.reply.code == OK
    ensures |r.state| == |table|
    ensures forall k :: 0 <= k < |table| ==>
              r.state[k] == if table[k].id == id then table[k].(isPublished := Js.Flag(isPublished)) else table[k]
    ensures r.reply.body.Some? ==> r.reply.body.value.isPublished == Js.Flag(isPublished)
    ensures r.reply.body.None? <==> Find(table, id).None?
    ensures WellFormed(table) ==> WellFormed(r.state)
  {
    var next := UpdateWhere(table, id, (row: CollectionRow) => row.(isPublished := Js.Flag(isPublished)));
    FindAfterUpdate(table, id, next);
    UpdateKeepsWellFormed(table, next);
    Step(next, Ok(OK, Find(next, id)))
  }

  /** `DELETE /api/admin/collections/:id`: the row goes and the answer is 204 whether or
      not it existed. */
  function DeleteCollection(table: seq<CollectionRow>, id: int): (r: Step<seq<CollectionRow>, ()>)
    ensures r.reply == Ok(NO_CONTENT, ())
    ensures forall k :: 0 <= k < |r.state| ==> r.state[k].id != id && r.state[k] in table
    ensures forall k :: 0 <= k < |table| && table[k].id != id ==> table[k] in r.state
    ensures WellFormed(table) ==> WellFormed(r.state)
  {
    var p := (row: CollectionRow) => row.id != id;
    FilterKeepsAscending(table, p);
    Step(Seqs.Filter(p, table), Ok(NO_CONTENT, ()))
  }

  /** The body of the first handler for `GET /api/collections/:id/artworks`. */
  datatype IdListBody = IdListBody(collectionId: int, collectionName: string, metObjectIds: seq<string>)

  /** The first registered handler for `GET /api/collections/:id/artworks` (line 49),
      the one Express reaches: 404 for an unknown collection, otherwise the collection's
      catalog ids ordered by `sort_order` alone, links without a position first. */
  function IdListReply(collections: seq<CollectionRow>, links: seq<Links.LinkRow>, id: int): (r: Reply<IdListBody>)
    ensures r.Fail? <==> Find(collections, id).None?
    ensures r.Fail? ==> r.code == NOT_FOUND && r.message == NotFoundMessage
    ensures r.Ok? ==> r.code == OK && r.body.collectionId == id && r.body.collectionName == Find(collections, id).value.name
    ensures r.Ok? ==> multiset(r.body.metObjectIds) == multiset(Seqs.Map(Links.MetObjectId, Links.LinksOf(links, id)))
  {
    match Find(collections, id)
    case None => Fail(NOT_FOUND, NotFoundMessage)
    case Some(c) =>
      var ordered := Links.IdListOrder(Links.LinksOf(links, id));
      Sorting.SortByKeepsImages(Links.IdListKey, Links.MetObjectId, Links.LinksOf(links, id));
      Ok(OK, IdListBody(id, c.name, Seqs.Map(Links.MetObjectId, ordered)))
  }

  /** The catalog ids the resolver handler reads for a collection: its links in resolver
      order (line 356), mapped to their ids (line 360). */
  function ResolverIds(links: seq<Links.LinkRow>, id: int): (r: seq<string>)
    ensures |r| == |Links.LinksOf(links, id)|
    ensures multiset(r) == multiset(Seqs.Map(Links.MetObjectId, Links.LinksOf(links, id)))
  {
    var ordered := Links.ResolverOrder(Links.LinksOf(links, id));
    Sorting.SortByKeepsImages(Links.ResolverKey, Links.MetObjectId, Links.LinksOf(links, id));
    assert |ordered| == |multiset(ordered)|;
    Seqs.Map(Links.MetObjectId, ordered)
  }

  /** The second handler for `GET /api/collections/:id/artworks` (line 347). It is
      registered after the one at line 49 and is never reached by a request; modelled
      as written. It does not check that the collection exists: no links gives `[]`
      without a single catalog request. */
  method ResolvedArtworksReply(links: seq<Links.LinkRow>, id: int, fetch: string -> Catalog.FetchOutcome)
    returns (reply: Reply<seq<Catalog.Artwork>>, launched: seq<seq<string>>)
    ensures reply == Catalog.ResolveAll(fetch, ResolverIds(links, id))
    ensures forall k :: 0 <= k < |launched| ==> 0 < |launched[k]| <= Catalog.WindowWidth
    ensures Links.LinksOf(links, id) == [] ==> reply == Ok(OK, []) && launched == []
    ensures reply.Ok? ==> Seqs.Flatten(launched) == ResolverIds(links, id)
  {
    var ids := ResolverIds(links, id);
    reply, launched := Catalog.ResolveInWindows(fetch, ids);
    Catalog.WindowsPartition(ids);
  }
}

=== FILE: comments_api.dfy ===
/** The comment endpoints of backend/server.js for the fixed user 1. */
module CommentsApi {
  import opened Wrappers
  import Js
  import Seqs
  import Sqlite

  /** A row of `comments`; `createdAt` is the timestamp text SQLite filled in. */
  datatype CommentRow = CommentRow(id: int, metObjectId: string, text: string, createdAt: string)

  const TextRequired := "Comment-tekst is verplicht"
  const AddFailed := "Kon comment niet toevoegen"

  function CommentId(row: CommentRow): int {
    row.id
  }

  function About(metObjectId: string): CommentRow -> bool {
    (row: CommentRow) => row.metObjectId == metObjectId
  }

  /** `GET /api/artworks/:id/comments`: the artwork's comments, newest first. The table
      is kept in insertion order, and `ORDER BY created_at DESC` is read as reverse
      insertion order. */
  function ListComments(table: seq<CommentRow>, metObjectId: string): (r: seq<CommentRow>)
    ensures forall k :: 0 <= k < |r| ==> r[k] in table && r[k].metObjectId == metObjectId
    ensures forall i :: 0 <= i < |table| && table[i].metObjectId == metObjectId ==> table[i] in r
  {
    var mine := Seqs.Filter(About(metObjectId), table);
    assert forall k :: 0 <= k < |mine| ==> Seqs.Reverse(mine)[k] == mine[|mine| - 1 - k];
    Seqs.Reverse(mine)
  }

  /** `POST /api/artworks/:id/comments` with body `{ text }` at time `now`. */
  function PostComment(table: seq<CommentRow>, metObjectId: string, text: Js.Value, now: string): (r: Step<seq<CommentRow>, CommentRow>)
    ensures r.reply.Fail? ==> r.state == table
    ensures Js.CheckRequired(text).Missing? ==> r.reply == Fail(BAD_REQUEST, TextRequired)
    ensures Js.CheckRequired(text).NotText? ==> r.reply == Fail(SERVER_ERROR, AddFailed)
    ensures r.reply.Ok? <==> Js.CheckRequired(text).Given?
    ensures r.reply.Ok? ==>
              && r.reply.code == CREATED
              && r.state == table + [r.reply.body]
              && r.reply.body.text == Js.Trim(text.s)
              && r.reply.body.metObjectId == metObjectId
              && forall k :: 0 <= k < |table| ==> table[k].id < r.reply.body.id
  {
    match Js.CheckRequired(text)
    case Missing => Step(table, Fail(BAD_REQUEST, TextRequired))
    case NotText => Step(table, Fail(SERVER_ERROR, AddFailed))
    case Given(trimmed) =>
      var row := CommentRow(NextCommentId(table), metObjectId, trimmed, now);
      Step(table + [row], Ok(CREATED, row))
  }

  function NextCommentId(table: seq<CommentRow>): (r: int)
    ensures forall k :: 0 <= k < |table| ==> table[k].id < r
  {
    var ids := Seqs.Map(CommentId, table);
    assert forall k :: 0 <= k < |table| ==> table[k].id == ids[k];
    Sqlite.NextRowId(ids)
  }

  /** Appending a row puts it at the head of its artwork's list and leaves every other
      artwork's list as it was. */
  lemma AppendedRowListedFirst(table: seq<CommentRow>, row: CommentRow)
    ensures ListComments(table + [row], row.metObjectId) == [row] + ListComments(table, row.metObjectId)
    ensures forall other :: other != row.metObjectId ==> ListComments(table + [row], other) == ListComments(table, other)
  {
    Seqs.FilterAppend(About(row.metObjectId), table, [row]);
    assert Seqs.Filter(About(row.metObjectId), [row]) == [row];
    Seqs.ReverseSnoc(Seqs.Filter(About(row.metObjectId), table), row);
    forall other | other != row.metObjectId
      ensures ListComments(table + [row], other) == ListComments(table, other)
    {
      Seqs.FilterAppend(About(other), table, [row]);
      assert Seqs.Filter(About(other), [row]) == [];
      assert Seqs.Filter(About(other), table) + [] == Seqs.Filter(About(other), table);
    }
  }

  /** A saved comment heads its artwork's list and leaves every other artwork's list as
      it was. */
  lemma PostedCommentListedFirst(table: seq<CommentRow>, metObjectId: string, text: Js.Value, now: string)
    requires PostComment(table, metObjectId, text, now).reply.Ok?
    ensures var r := PostComment(table, metObjectId, text, now);
            && ListComments(r.state, metObjectId) == [r.reply.body] + ListComments(table, metObjectId)
            && forall other :: other != metObjectId ==> ListComments(r.state, other) == ListComments(table, other)
  {
    AppendedRowListedFirst(table, PostComment(table, metObjectId, text, now).reply.body);
  }
}

=== FILE: favorites_api.dfy ===
/** The favourites endpoints of backend/server.js for the fixed user 1. With the unique
    (user_id, met_object_id) key that `INSERT OR IGNORE` relies on, the user's favourites
    form a set of catalog ids held as text. */
module FavoritesApi {
  import opened Wrappers
  import Js

  const IdRequired := "metObjectId is verplicht"

  /** `POST /api/favorites` with body `{ metObjectId }`. */
  function AddFavorite(favorites: set<string>, metObjectId: Js.Value): (r: Step<set<string>, string>)
    ensures !Js.Truthy(metObjectId) ==> r == Step(favorites, Fail(BAD_REQUEST, IdRequired))
    ensures Js.Truthy(metObjectId) ==> r.reply == Ok(CREATED, Js.ToStr(metObjectId))
    ensures Js.Truthy(metObjectId) ==> r.state == favorites + {Js.ToStr(metObjectId)}
  {
    if !Js.Truthy(metObjectId) then Step(favorites, Fail(BAD_REQUEST, IdRequired))
    else
      var key := Js.ToStr(metObjectId);
      Step(favorites + {key}, Ok(CREATED, key))
  }

  /** `DELETE /api/favorites/:metObjectId`: always 204, whether or not the id was there. */
  function RemoveFavorite(favorites: set<string>, metObjectId: string): (r: Step<set<string>, ()>)
    ensures r.reply == Ok(NO_CONTENT, ())
    ensures metObjectId !in r.state
    ensures forall other :: other != metObjectId ==> (other in r.state <==> other in favorites)
  {
    Step(favorites - {metObjectId}, Ok(NO_CONTENT, ()))
  }

  /** Adding a favourite twice is adding it once: the second insert is ignored and
      answers the same 201. */
  lemma AddIdempotent(favorites: set<string>, metObjectId: Js.Value)
    ensures var once := AddFavorite(favorites, metObjectId);
            AddFavorite(once.state, metObjectId) == once
  {
  }

  /** A number and its decimal text name the same favourite. */
  lemma NumberAndTextAgree(favorites: set<string>, n: int)
    requires n != 0
    ensures AddFavorite(favorites, Js.Num(n)).state == AddFavorite(favorites, Js.Str(Js.ToStr(Js.Num(n)))).state
  {
    assert Js.ToStr(Js.Num(n)) != "" by {
      if n < 0 {
        assert Js.ToStr(Js.Num(n))[0] == '-';
      }
    }
  }

  /** Removing what was just added restores the favourites when it was new, and removing
      an absent id changes nothing. */
  lemma AddThenRemove(favorites: set<string>, metObjectId: Js.Value)
    requires Js.Truthy(metObjectId)
    ensures Js.ToStr(metObjectId) !in favorites ==>
              RemoveFavorite(AddFavorite(favorites, metObjectId).state, Js.ToStr(metObjectId)).state == favorites
    ensures forall absent :: absent !in favorites ==> RemoveFavorite(favorites, absent).state == favorites
  {
  }
}

=== FILE: js.dfy ===
/** The JavaScript value semantics the application leans on: truthiness, `String(x)`,
    `a || b` on optional text, `x ?? d`, `String.prototype.trim`, `toLowerCase` and
    `includes`. */
module Js {
  import opened Wrappers

  /** A scalar JSON value as it arrives in a request body or a stored document.
      Numbers are integral here: every number the application handles is an id or a flag. */
  datatype Value = Undefined | Null | Bool(b: bool) | Num(n: int) | Str(s: string)

  /** JavaScript truthiness of a scalar: `undefined`, `null`, `false`, `0` and `""` are falsy. */
  predicate Truthy(v: Value): (b: bool)
    ensures !b <==> v == Undefined || v == Null || v == Bool(false) || v == Num(0) || v == Str("")
  {
    match v
    case Undefined => false
    case Null => false
    case Bool(b) => b
    case Num(n) => n != 0
    case Str(s) => s != ""
  }

  /** The ternary `v ? 1 : 0` the server uses to store a publication flag. */
  function Flag(v: Value): (r: int)
    ensures r == 0 || r == 1
    ensures r == 1 <==> Truthy(v)
  {
    if Truthy(v) then 1 else 0
  }

  function DigitChar(d: nat): (c: char)
    requires d < 10
    ensures '0' <= c <= '9'
  {
    (48 + d) as char
  }

  /** The decimal numeral JavaScript prints for a non-negative integer. */
  function NatToDecimal(n: nat): (r: string)
    ensures 1 <= |r|
    ensures n >= 10 ==> 2 <= |r|
    ensures forall k :: 0 <= k < |r| ==> '0' <= r[k] <= '9'
    ensures r[0] == '0' ==> n == 0
    decreases n
  {
    if n < 10 then [DigitChar(n)] else NatToDecimal(n / 10) + [DigitChar(n % 10)]
  }

  /** The value of a digit character. */
  function DigitValue(c: char): nat {
    if '0' <= c <= '9' then c as int - 48 else 0
  }

  /** The number a string of decimal digits denotes, read most significant digit first. */
  function DecimalValue(s: string): nat
    decreases |s|
  {
    if s == [] then 0 else DecimalValue(s[..|s| - 1]) * 10 + DigitValue(s[|s| - 1])
  }

  /** Reading the numeral back gives the number it was printed from. */
  lemma {:induction false} NatToDecimalValue(n: nat)
    ensures DecimalValue(NatToDecimal(n)) == n
    decreases n
  {
    var r := NatToDecimal(n);
    if n >= 10 {
      assert r[..|r| - 1] == NatToDecimal(n / 10);
      NatToDecimalValue(n / 10);
    }
  }

  /** Distinct numbers print as distinct numerals, so `String(id)` never merges two ids. */
  lemma {:induction false} NatToDecimalInjective(n: nat, m: nat)
    ensures NatToDecimal(n) == NatToDecimal(m) ==> n == m
    decreases n
  {
    var a, b := NatToDecimal(n), NatToDecimal(m);
    if a == b && n >= 10 && m >= 10 {
      assert a[|a| - 1] == DigitChar(n % 10);
      assert b[|b| - 1] == DigitChar(m % 10);
      assert a[..|a| - 1] == NatToDecimal(n / 10);
      assert b[..|b| - 1] == NatToDecimal(m / 10);
      NatToDecimalInjective(n / 10, m / 10);
    }
  }

  function IntToDecimal(i: int): string {
    if i < 0 then "-" + NatToDecimal(-i) else NatToDecimal(i)
  }

  function Abs(n: int): nat {
    if n < 0 then -n else n
  }

  /** `String(v)`: text is kept, and a number prints as an optional minus sign followed
      by the decimal digits of its magnitude, without leading zeros. */
  function ToStr(v: Value): (r: string)
    ensures v.Str? ==> r == v.s
    ensures v.Num? ==> r != [] && (r[0] == '-' <==> v.n < 0)
    ensures v.Num? ==> forall k :: (if v.n < 0 then 1 else 0) <= k < |r| ==> '0' <= r[k] <= '9'
    ensures v.Num? ==> var digits := if v.n < 0 then r[1..] else r;
            digits != [] && DecimalValue(digits) == Abs(v.n) && (digits[0] == '0' ==> v.n == 0 && digits == "0")
  {
    match v
    case Undefined => "undefined"
    case Null => "null"
    case Bool(b) => if b then "true" else "false"
    case Num(n) =>
      NatToDecimalValue(Abs(n));
      IntToDecimal(n)
    case Str(s) => s
  }

  /** `String(n)` is injective on numbers, so stringified catalog ids stay distinct. */
  lemma NumToStrInjective(n: int, m: int)
    ensures ToStr(Num(n)) == ToStr(Num(m)) ==> n == m
  {
    if ToStr(Num(n)) == ToStr(Num(m)) {
      if n < 0 && m < 0 {
        assert ToStr(Num(n))[1..] == NatToDecimal(-n);
        assert ToStr(Num(m))[1..] == NatToDecimal(-m);
        NatToDecimalInjective(-n, -m);
      } else if n >= 0 && m >= 0 {
        NatToDecimalInjective(n, m);
      }
    }
  }

  /** `field || fallback` for an optional text field: an absent or empty field gives way. */
  function Or(field: Option<string>, fallback: string): (r: string)
    ensures r == fallback || (field.Some? && r == field.value)
    ensures r != "" <==> HasText(field) || fallback != ""
    ensures HasText(field) ==> r == field.value
  {
    if HasText(field) then field.value else fallback
  }

  /** A present, non-empty text field: what `field || ...` keeps. */
  predicate HasText(field: Option<string>) {
    field.Some? && field.value != ""
  }

  /** `v ?? fallback`: only `null` and `undefined` give way; `""`, `0` and `false` are kept. */
  function Coalesce(v: Value, fallback: string): (r: Value)
    ensures r.Str? && r.s == fallback <== v.Null? || v.Undefined?
    ensures !(v.Null? || v.Undefined?) ==> r == v
  {
    if v.Null? || v.Undefined? then Str(fallback) else v
  }

  /** The characters `String.prototype.trim` removes: ECMAScript WhiteSpace and
      LineTerminator (tab, line feed, vertical tab, form feed, carriage return, the
      space separators of category Zs, the byte-order mark, and the line and paragraph
      separators). */
  predicate IsSpace(c: char) {
    c == ' ' || c == '\t' || c == '\n' || c == '\r' || c == '\U{000B}' || c == '\U{000C}'
    || c == '\U{00A0}' || c == '\U{1680}' || ('\U{2000}' <= c <= '\U{200A}')
    || c == '\U{2028}' || c == '\U{2029}' || c == '\U{202F}' || c == '\U{205F}'
    || c == '\U{3000}' || c == '\U{FEFF}'
  }

  /** Drops the leading white space: the result is the suffix of `s` that starts at its
      first non-space character. */
  function TrimStart(s: string): (r: string)
    ensures |r| <= |s| && r == s[|s| - |r|..]
    ensures forall k :: 0 <= k < |s| - |r| ==> IsSpace(s[k])
    ensures r == [] || !IsSpace(r[0])
  {
    if |s| > 0 && IsSpace(s[0]) then TrimStart(s[1..]) else s
  }

  /** Drops the trailing white space: the result is the prefix of `s` that ends at its
      last non-space character. */
  function TrimEnd(s: string): (r: string)
    ensures |r| <= |s| && r == s[..|r|]
    ensures forall k :: |r| <= k < |s| ==> IsSpace(s[k])
    ensures r == [] || !IsSpace(r[|r| - 1])
  {
    if |s| > 0 && IsSpace(s[|s| - 1]) then TrimEnd(s[..|s| - 1]) else s
  }

  /** `s.trim()`: the stretch of `s` left when the white space at both ends is cut off. */
  function Trim(s: string): (r: string)
    ensures |r| <= |s|
    ensures r == [] || (!IsSpace(r[0]) && !IsSpace(r[|r| - 1]))
    ensures r == [] <==> forall k :: 0 <= k < |s| ==> IsSpace(s[k])
    ensures exists i :: CutAt(s, r, i)
  {
    var t := TrimStart(s);
    var r := TrimEnd(t);
    TrimParts(s, t, r);
    r
  }

  /** `r` is the stretch of `s` from offset `i`, and everything of `s` before and after
      it is white space. */
  predicate CutAt(s: string, r: string, i: int) {
    && 0 <= i <= |s| - |r| && r == s[i..i + |r|]
    && (forall k :: 0 <= k < i ==> IsSpace(s[k]))
    && (forall k :: i + |r| <= k < |s| ==> IsSpace(s[k]))
  }

  /** Cutting white space off the front of `s` (giving `t`) and then off the back of
      `t` (giving `r`) leaves `r` as a stretch of `s` with white space around it. */
  lemma CutBothEnds(s: string, t: string, r: string)
    requires |t| <= |s| && t == s[|s| - |t|..] && forall k :: 0 <= k < |s| - |t| ==> IsSpace(s[k])
    requires |r| <= |t| && r == t[..|r|] && forall k :: |r| <= k < |t| ==> IsSpace(t[k])
    ensures CutAt(s, r, |s| - |t|)
  {
    var i := |s| - |t|;
    assert s[i..i + |r|] == t[..|r|];
    forall k | i + |r| <= k < |s| ensures IsSpace(s[k]) {
      assert s[k] == t[k - i];
    }
  }

  /** The facts about `Trim` from those about its two halves, stated over plain
      sequences: `t` is `s` without leading white space, `r` is `t` without trailing
      white space. */
  lemma TrimParts(s: string, t: string, r: string)
    requires |t| <= |s| && t == s[|s| - |t|..] && forall k :: 0 <= k < |s| - |t| ==> IsSpace(s[k])
    requires t == [] || !IsSpace(t[0])
    requires |r| <= |t| && r == t[..|r|] && forall k :: |r| <= k < |t| ==> IsSpace(t[k])
    requires r == [] || !IsSpace(r[|r| - 1])
    ensures r == [] || (!IsSpace(r[0]) && !IsSpace(r[|r| - 1]))
    ensures r == [] <==> forall k :: 0 <= k < |s| ==> IsSpace(s[k])
    ensures CutAt(s, r, |s| - |t|)
  {
    CutBothEnds(s, t, r);
    assert r != [] ==> r[0] == t[0] && r[0] == s[|s| - |t|];
    assert t == [] ==> forall k :: 0 <= k < |s| ==> IsSpace(s[k]);
  }

  /** Text that `trim()` reduces to the empty string: the source's `!x.trim()` test. */
  predicate IsBlank(s: string) {
    Trim(s) == ""
  }

  /** How a handler's `!x || !x.trim()` test, and the `x.trim()` after it, treat a
      required text field. */
  datatype RequiredText = Missing | NotText | Given(trimmed: string)

  function CheckRequired(v: Value): (r: RequiredText)
    ensures r.Missing? <==> !Truthy(v) || (v.Str? && IsBlank(v.s))
    ensures r.NotText? <==> Truthy(v) && !v.Str?
    ensures r.Given? ==> v.Str? && r.trimmed == Trim(v.s) && !IsBlank(r.trimmed) && Trim(r.trimmed) == r.trimmed
  {
    if !Truthy(v) then Missing
    // a truthy non-string has no `trim` method: the call throws
    else if !v.Str? then NotText
    else if IsBlank(v.s) then Missing
    else
      TrimIdempotent(v.s);
      Given(Trim(v.s))
  }

  /** Trimming twice is trimming once, so a client that trims before sending and a
      server that trims again store the same text. */
  lemma TrimIdempotent(s: string)
    ensures Trim(Trim(s)) == Trim(s)
  {
    var r := Trim(s);
    assert TrimStart(r) == r;
    assert TrimEnd(r) == r;
  }

  /** Text that is not blank passes the required-text check once trimmed, unchanged:
      a client that trims before sending gets its text stored as sent. */
  lemma TrimmedPassesCheck(s: string)
    requires !IsBlank(s)
    ensures CheckRequired(Str(Trim(s))) == Given(Trim(s))
  {
    TrimIdempotent(s);
  }

  function LowerChar(c: char): (d: char)
    ensures 'A' <= c <= 'Z' ==> 'a' <= d <= 'z'
    ensures !('A' <= c <= 'Z') ==> d == c
  {
    if 'A' <= c <= 'Z' then (c as int + 32) as char else c
  }

  /** `toLowerCase()` on the ASCII letters. */
  function ToLower(s: string): (r: string)
    ensures |r| == |s|
    ensures forall k :: 0 <= k < |s| ==> r[k] == LowerChar(s[k])
  {
    seq(|s|, k requires 0 <= k < |s| => LowerChar(s[k]))
  }

  /** `hay.startsWith(needle)`. */
  predicate StartsWith(hay: string, needle: string) {
    |needle| <= |hay| && hay[..|needle|] == needle
  }

  /** `hay.includes(needle)`: some position of `hay` starts a copy of `needle`. */
  predicate Includes(hay: string, needle: string)
    decreases |hay|
  {
    StartsWith(hay, needle) || (|hay| > 0 && Includes(hay[1..], needle))
  }

  /** `needle` occurs in `hay` starting at offset `i`. */
  predicate OccursAt(hay: string, needle: string, i: int) {
    0 <= i <= |hay| - |needle| && hay[i..i + |needle|] == needle
  }

  /** `includes` finds a needle exactly when it occurs at some offset of the haystack. */
  lemma {:induction false} IncludesMeansOccurs(hay: string, needle: string)
    ensures Includes(hay, needle) <==> exists i :: OccursAt(hay, needle, i)
    decreases |hay|
  {
    if |hay| > 0 {
      IncludesMeansOccurs(hay[1..], needle);
    }
    if StartsWith(hay, needle) {
      assert OccursAt(hay, needle, 0);
    } else if Includes(hay, needle) {
      var i :| OccursAt(hay[1..], needle, i);
      SliceOfTail(hay, i + 1, |needle|);
      assert OccursAt(hay, needle, i + 1);
    }
    if exists i :: OccursAt(hay, needle, i) {
      var i :| OccursAt(hay, needle, i);
      if i > 0 {
        SliceOfTail(hay, i, |needle|);
        assert OccursAt(hay[1..], needle, i - 1);
      }
    }
  }

  lemma SliceOfTail(hay: string, i: int, n: nat)
    requires 1 <= i && i + n <= |hay|
    ensures hay[i..i + n] == hay[1..][i - 1..i - 1 + n]
  {
    var a, b := hay[i..i + n], hay[1..][i - 1..i - 1 + n];
    forall k | 0 <= k < n ensures a[k] == b[k] {
      assert hay[1..][i - 1 + k] == hay[i + k];
    }
  }

  /** Every string includes the empty string, and the empty string includes nothing else:
      a missing field (read as `""`) matches only an empty query. */
  lemma IncludesEmpty(hay: string, needle: string)
    ensures Includes(hay, "")
    ensures Includes("", needle) <==> needle == ""
  {
    assert StartsWith(hay, "");
  }
}

=== FILE: links.dfy ===
/** The `collection_artworks` link table and the two orders in which the server reads a
    collection's links (backend/server.js). */
module Links {
  import opened Wrappers
  import opened Sorting
  import Seqs

  /** One row of `collection_artworks`: the SQLite row id, the owning collection, the
      catalog object id as text, and an optional explicit position. */
  datatype LinkRow = LinkRow(rowId: int, collectionId: int, metObjectId: string, sortOrder: Option<int>)

  /** The position `COALESCE(sort_order, 999999)` gives a link without one. */
  const UnsortedPosition := 999999

  function Position(l: LinkRow): int {
    l.sortOrder.GetOr(UnsortedPosition)
  }

  /** `ORDER BY COALESCE(sort_order, 999999) ASC, id ASC`. */
  function ResolverKey(l: LinkRow): Key {
    Key(Position(l), l.rowId)
  }

  /** `ORDER BY sort_order`: SQLite orders NULL before every number. */
  function IdListKey(l: LinkRow): Key {
    match l.sortOrder
    case None => Key(0, 0)
    case Some(p) => Key(1, p)
  }

  function InCollection(collectionId: int): LinkRow -> bool {
    (l: LinkRow) => l.collectionId == collectionId
  }

  /** `WHERE collection_id = ?`, in table order: every row of the collection as often as
      the table holds it, and no other row. */
  function LinksOf(table: seq<LinkRow>, collectionId: int): (r: seq<LinkRow>)
    ensures forall k :: 0 <= k < |r| ==> r[k] in table && r[k].collectionId == collectionId
    ensures forall i :: 0 <= i < |table| && table[i].collectionId == collectionId ==> table[i] in r
    ensures forall l :: multiset(r)[l] == if l.collectionId == collectionId then multiset(table)[l] else 0
  {
    Seqs.FilterCounts(InCollection(collectionId), table);
    Seqs.Filter(InCollection(collectionId), table)
  }

  /** The link order of the artwork resolver: ascending by coalesced position, ties
      broken by ascending row id; a permutation of the collection's links. */
  function ResolverOrder(rows: seq<LinkRow>): (r: seq<LinkRow>)
    ensures multiset(r) == multiset(rows)
    ensures forall i, j :: 0 <= i < j < |r| ==>
              Position(r[i]) < Position(r[j])
              || (Position(r[i]) == Position(r[j]) && r[i].rowId <= r[j].rowId)
  {
    SortBy(ResolverKey, rows)
  }

  /** A link without a position comes after every link whose position is below 999999,
      but a position above 999999 sorts after the links without one. */
  lemma ResolverOrderPlacesNulls(rows: seq<LinkRow>, i: int, j: int)
    requires 0 <= i < |ResolverOrder(rows)| && 0 <= j < |ResolverOrder(rows)|
    requires ResolverOrder(rows)[i].sortOrder.None? && ResolverOrder(rows)[j].sortOrder.Some?
    ensures ResolverOrder(rows)[j].sortOrder.value < UnsortedPosition ==> j < i
    ensures ResolverOrder(rows)[j].sortOrder.value > UnsortedPosition ==> i < j
  {
  }

  /** The link order of the id-list handler: ascending by position with the links that
      have none first; a permutation of the collection's links. SQLite leaves the order
      of equal positions open; the model keeps them in table order, one of the orders
      SQLite may return. */
  function IdListOrder(rows: seq<LinkRow>): (r: seq<LinkRow>)
    ensures multiset(r) == multiset(rows)
    ensures forall i, j :: 0 <= i < j < |r| && r[j].sortOrder.None? ==> r[i].sortOrder.None?
    ensures forall i, j :: 0 <= i < j < |r| && r[i].sortOrder.Some? && r[j].sortOrder.Some? ==>
              r[i].sortOrder.value <= r[j].sortOrder.value
  {
    SortBy(IdListKey, rows)
  }

  function MetObjectId(l: LinkRow): string {
    l.metObjectId
  }

  /** The two handlers disagree whenever a collection mixes a link without a position
      with one whose position is below 999999: the resolver lists the positioned link
      first, the id-list handler lists it after the unpositioned one. */
  lemma OrdersDisagreeOnNull(rows: seq<LinkRow>, a: LinkRow, b: LinkRow)
    requires a in rows && b in rows
    requires a.sortOrder.None? && b.sortOrder.Some? && b.sortOrder.value < UnsortedPosition
    ensures a in ResolverOrder(rows) && b in ResolverOrder(rows)
    ensures a in IdListOrder(rows) && b in IdListOrder(rows)
    ensures forall i, j ::
              0 <= i < |ResolverOrder(rows)| && 0 <= j < |ResolverOrder(rows)| &&
              ResolverOrder(rows)[i] == a && ResolverOrder(rows)[j] == b
              ==> j < i
    ensures forall i, j ::
              0 <= i < |IdListOrder(rows)| && 0 <= j < |IdListOrder(rows)| &&
              IdListOrder(rows)[i] == a && IdListOrder(rows)[j] == b
              ==> i < j
  {
    var res, ids := ResolverOrder(rows), IdListOrder(rows);
    assert a in multiset(res) && b in multiset(res);
    assert a in multiset(ids) && b in multiset(ids);
    forall i, j | 0 <= i < |res| && 0 <= j < |res| && res[i] == a && res[j] == b
      ensures j < i
    {
      ResolverOrderPlacesNulls(rows, i, j);
    }
  }
}

=== FILE: seed.dfy ===
/** The seeding script backend/seed-met-collections.js: per configured theme it searches
    the catalog, keeps the first twenty hits, inserts a collection and links the hits to
    it with `INSERT OR IGNORE`. */
module Seed {
  import opened Wrappers
  import Js
  import Seqs
  import Links
  import Sorting
  import Sqlite
  import CollectionsApi

  /** At most this many search hits are linked to a seeded collection. */
  const PickLimit := 20

  /** A catalog search response: its status, and the `objectIDs` member of its body,
      which the catalog sends as `null` when nothing matches. */
  datatype SearchResponse = SearchResponse(ok: bool, status: int, objectIds: Option<seq<int>>)

  /** `metSearch`: a non-2xx response fails the whole run; a missing id list reads as
      no hits. */
  function MetSearch(response: SearchResponse): (r: Result<seq<int>>)
    ensures r.Failure? <==> !response.ok
    ensures r.Failure? ==> r.error == "MET search failed: " + Js.IntToDecimal(response.status)
    ensures response.ok && response.objectIds.None? ==> r == Success([])
    ensures response.ok && response.objectIds.Some? ==> r == Success(response.objectIds.value)
  {
    if !response.ok then Failure("MET search failed: " + Js.IntToDecimal(response.status))
    else Success(response.objectIds.GetOr([]))
  }

  /** `ids.slice(0, 20)`: the first twenty hits in search order, or all of them when
      there are fewer. */
  function Pick(ids: seq<int>): (r: seq<int>)
    ensures r <= ids
    ensures |r| == if |ids| < PickLimit then |ids| else PickLimit
  {
    if |ids| <= PickLimit then ids else ids[..PickLimit]
  }

  /** `upsertCollection`: despite its name it always inserts. The fields are stored as
      given (no trimming, no check) and the publication flag is coerced to 1 or 0. The
      result is the new table and the new row's id. */
  function UpsertCollection(table: seq<CollectionsApi.CollectionRow>, name: string, description: string,
                            category: string, cover: string, isPublished: Js.Value)
    : (r: (seq<CollectionsApi.CollectionRow>, int))
    ensures |r.0| == |table| + 1 && r.0[..|table|] == table
    ensures r.1 == r.0[|table|].id && forall k :: 0 <= k < |table| ==> table[k].id < r.1
    ensures r.0[|table|].name == name && r.0[|table|].description == Js.Str(description)
    ensures r.0[|table|].category == Js.Str(category) && r.0[|table|].coverImageUrl == Js.Str(cover)
    ensures r.0[|table|].isPublished == 1 <==> Js.Truthy(isPublished)
    ensures r.0[|table|].isPublished == 0 <==> !Js.Truthy(isPublished)
  {
    var id := CollectionsApi.NextId(table);
    var row := CollectionsApi.CollectionRow(id, name, Js.Str(description), Js.Str(category), Js.Str(cover), Js.Flag(isPublished));
    assert (table + [row])[..|table|] == table;
    (table + [row], id)
  }

  /** A seeded row with a trimmed, non-blank name keeps the collection table in the
      shape the administrator endpoints maintain. */
  lemma SeededRowKeepsWellFormed(table: seq<CollectionsApi.CollectionRow>, name: string, description: string,
                                 category: string, cover: string, isPublished: Js.Value)
    requires CollectionsApi.WellFormed(table)
    requires !Js.IsBlank(name) && Js.Trim(name) == name
    ensures CollectionsApi.WellFormed(UpsertCollection(table, name, description, category, cover, isPublished).0)
  {
    var next := UpsertCollection(table, name, description, category, cover, isPublished).0;
    assert next == table + [next[|table|]];
    CollectionsApi.AppendKeepsWellFormed(table, next[|table|]);
  }

  /** `String(id)` for a catalog id. */
  function IdText(id: int): string {
    Js.ToStr(Js.Num(id))
  }

  function LinkRowId(l: Links.LinkRow): int {
    l.rowId
  }

  /** The `(collection_id, met_object_id)` pairs the link table holds. */
  function Pairs(links: seq<Links.LinkRow>): set<(int, string)> {
    set k | 0 <= k < |links| :: (links[k].collectionId, links[k].metObjectId)
  }

  /** The pairs `insertArtworkIds(collectionId, ids)` asks for. */
  function IdPairs(collectionId: int, ids: seq<int>): set<(int, string)> {
    PairImage(collectionId, IdText, ids)
  }

  /** The pairs of one collection with the texts `f` gives the ids. */
  function PairImage(collectionId: int, f: int -> string, ids: seq<int>): set<(int, string)> {
    set k | 0 <= k < |ids| :: (collectionId, f(ids[k]))
  }

  /** No pair is linked twice: the uniqueness `INSERT OR IGNORE` relies on. */
  predicate UniquePairs(links: seq<Links.LinkRow>) {
    forall i, j :: 0 <= i < j < |links| ==>
      (links[i].collectionId, links[i].metObjectId) != (links[j].collectionId, links[j].metObjectId)
  }

  /** Link row ids ascend through the table, as SQLite rowids do in insertion order. */
  predicate RowIdsAscending(links: seq<Links.LinkRow>) {
    forall i, j :: 0 <= i < j < |links| ==> links[i].rowId < links[j].rowId
  }

  /** One `INSERT OR IGNORE INTO collection_artworks (collection_id, met_object_id)`:
      an already linked pair is ignored; otherwise a row with a fresh row id and no
      position is appended. */
  function InsertLink(links: seq<Links.LinkRow>, collectionId: int, metObjectId: string): (r: seq<Links.LinkRow>)
    ensures Pairs(r) == Pairs(links) + {(collectionId, metObjectId)}
    ensures links <= r && |r| <= |links| + 1
    ensures |r| == |links| + 1 <==> (collectionId, metObjectId) !in Pairs(links)
    ensures |r| == |links| + 1 ==>
              r[|links|].collectionId == collectionId && r[|links|].metObjectId == metObjectId
              && r[|links|].sortOrder.None?
              && forall k :: 0 <= k < |links| ==> links[k].rowId < r[|links|].rowId
  {
    if (collectionId, metObjectId) in Pairs(links) then links
    else
      var ids := Seqs.Map(LinkRowId, links);
      assert forall k :: 0 <= k < |links| ==> links[k].rowId == ids[k];
      var row := Links.LinkRow(Sqlite.NextRowId(ids), collectionId, metObjectId, None);
      var r := links + [row];
      assert Pairs(r) == Pairs(links) + {(collectionId, metObjectId)} by {
        assert (collectionId, metObjectId) == (r[|links|].collectionId, r[|links|].metObjectId);
        forall p | p in Pairs(r) ensures p in Pairs(links) + {(collectionId, metObjectId)} {
          var k :| 0 <= k < |r| && p == (r[k].collectionId, r[k].metObjectId);
          if k < |links| {
            assert r[k] == links[k];
          }
        }
        forall p | p in Pairs(links) ensures p in Pairs(r) {
          var k :| 0 <= k < |links| && p == (links[k].collectionId, links[k].metObjectId);
          assert r[k] == links[k];
        }
      }
      r
  }

  /** `insertArtworkIds(collectionId, ids)`: the ids are linked one after the other, in
      order, each under its decimal text. */
  function InsertArtworkIds(links: seq<Links.LinkRow>, collectionId: int, ids: seq<int>): (r: seq<Links.LinkRow>)
    ensures links <= r
    ensures forall k :: |links| <= k < |r| ==> r[k].collectionId == collectionId && r[k].sortOrder.None?
    decreases |ids|
  {
    if ids == [] then links
    else InsertArtworkIds(InsertLink(links, collectionId, IdText(ids[0])), collectionId, ids[1..])
  }

  lemma IdPairsStep(collectionId: int, ids: seq<int>)
    requires ids != []
    ensures IdPairs(collectionId, ids) == {(collectionId, IdText(ids[0]))} + IdPairs(collectionId, ids[1..])
  {
    PairImageStep(collectionId, IdText, ids);
  }

  /** Peeling the first id off a set of pairs built from an id list. */
  lemma PairImageStep(collectionId: int, f: int -> string, ids: seq<int>)
    requires ids != []
    ensures PairImage(collectionId, f, ids) == {(collectionId, f(ids[0]))} + PairImage(collectionId, f, ids[1..])
  {
    var a := PairImage(collectionId, f, ids);
    var b := {(collectionId, f(ids[0]))} + PairImage(collectionId, f, ids[1..]);
    forall p | p in a ensures p in b {
      var k :| 0 <= k < |ids| && p == (collectionId, f(ids[k]));
      if k > 0 {
        assert ids[k] == ids[1..][k - 1];
      }
    }
    forall p | p in b ensures p in a {
      if p != (collectionId, f(ids[0])) {
        var k :| 0 <= k < |ids| - 1 && p == (collectionId, f(ids[1..][k]));
        assert ids[1..][k] == ids[k + 1];
      }
    }
  }

  /** After `insertArtworkIds` the table links exactly the old pairs and the requested
      ones: set union. */
  lemma {:induction false} InsertArtworkIdsUnion(links: seq<Links.LinkRow>, collectionId: int, ids: seq<int>)
    ensures Pairs(InsertArtworkIds(links, collectionId, ids)) == Pairs(links) + IdPairs(collectionId, ids)
    decreases |ids|
  {
    if ids != [] {
      InsertArtworkIdsUnion(InsertLink(links, collectionId, IdText(ids[0])), collectionId, ids[1..]);
      IdPairsStep(collectionId, ids);
    }
  }

  /** Inserting pairs that are all linked already changes nothing. */
  lemma {:induction false} InsertLinkedIsNoop(links: seq<Links.LinkRow>, collectionId: int, ids: seq<int>)
    requires IdPairs(collectionId, ids) <= Pairs(links)
    ensures InsertArtworkIds(links, collectionId, ids) == links
    decreases |ids|
  {
    if ids != [] {
      IdPairsStep(collectionId, ids);
      InsertLinkedIsNoop(links, collectionId, ids[1..]);
    }
  }

  /** Running `insertArtworkIds` a second time with the same ids adds no rows. */
  lemma InsertArtworkIdsIdempotent(links: seq<Links.LinkRow>, collectionId: int, ids: seq<int>)
    ensures var once := InsertArtworkIds(links, collectionId, ids);
            InsertArtworkIds(once, collectionId, ids) == once
  {
    InsertArtworkIdsUnion(links, collectionId, ids);
    InsertLinkedIsNoop(InsertArtworkIds(links, collectionId, ids), collectionId, ids);
  }

  /** A table without duplicate links, and with ascending row ids, stays so, however
      often the ids repeat within a call. */
  lemma {:induction false} InsertArtworkIdsKeepsUnique(links: seq<Links.LinkRow>, collectionId: int, ids: seq<int>)
    requires UniquePairs(links) && RowIdsAscending(links)
    ensures UniquePairs(InsertArtworkIds(links, collectionId, ids))
    ensures RowIdsAscending(InsertArtworkIds(links, collectionId, ids))
    decreases |ids|
  {
    if ids != [] {
      var next := InsertLink(links, collectionId, IdText(ids[0]));
      if |next| == |links| + 1 {
        forall i | 0 <= i < |links|
          ensures (next[i].collectionId, next[i].metObjectId) != (next[|links|].collectionId, next[|links|].metObjectId)
        {
          assert next[i] == links[i];
          assert (links[i].collectionId, links[i].metObjectId) in Pairs(links);
        }
        assert forall i :: 0 <= i < |links| ==> next[i] == links[i];
      }
      InsertArtworkIdsKeepsUnique(next, collectionId, ids[1..]);
    }
  }

  /** Linking distinct ids none of which is linked yet appends one row per id, in order. */
  lemma {:induction false} InsertFreshIds(links: seq<Links.LinkRow>, collectionId: int, ids: seq<int>)
    requires Seqs.NoDuplicates(ids)
    requires forall k :: 0 <= k < |ids| ==> (collectionId, IdText(ids[k])) !in Pairs(links)
    requires RowIdsAscending(links)
    ensures var r := InsertArtworkIds(links, collectionId, ids);
            |r| == |links| + |ids|
            && (forall k :: 0 <= k < |ids| ==> r[|links| + k].metObjectId == IdText(ids[k]))
            && RowIdsAscending(r)
    decreases |ids|
  {
    if ids != [] {
      var next := InsertLink(links, collectionId, IdText(ids[0]));
      FreshStep(links, collectionId, ids, next);
      InsertFreshIds(next, collectionId, ids[1..]);
      var r := InsertArtworkIds(links, collectionId, ids);
      assert r == InsertArtworkIds(next, collectionId, ids[1..]);
      assert next <= r;
      ShiftedTexts(links, next, r, ids);
    }
  }

  /** After linking the first of distinct fresh ids, the others are still fresh. */
  lemma FreshStep(links: seq<Links.LinkRow>, collectionId: int, ids: seq<int>, next: seq<Links.LinkRow>)
    requires ids != [] && Seqs.NoDuplicates(ids)
    requires forall k :: 0 <= k < |ids| ==> (collectionId, IdText(ids[k])) !in Pairs(links)
    requires RowIdsAscending(links)
    requires next == InsertLink(links, collectionId, IdText(ids[0]))
    ensures |next| == |links| + 1 && next[|links|].metObjectId == IdText(ids[0])
    ensures Seqs.NoDuplicates(ids[1..]) && RowIdsAscending(next)
    ensures forall k :: 0 <= k < |ids[1..]| ==> (collectionId, IdText(ids[1..][k])) !in Pairs(next)
  {
    forall k | 0 <= k < |ids| - 1 ensures (collectionId, IdText(ids[1..][k])) !in Pairs(next) {
      Js.NumToStrInjective(ids[0], ids[k + 1]);
      assert ids[1..][k] == ids[k + 1];
    }
    assert forall i :: 0 <= i < |links| ==> next[i] == links[i];
  }

  lemma ShiftedTexts(links: seq<Links.LinkRow>, next: seq<Links.LinkRow>, r: seq<Links.LinkRow>, ids: seq<int>)
    requires ids != [] && |next| == |links| + 1 && next <= r && |r| == |next| + |ids| - 1
    requires next[|links|].metObjectId == IdText(ids[0])
    requires forall k :: 0 <= k < |ids[1..]| ==> r[|next| + k].metObjectId == IdText(ids[1..][k])
    ensures forall k :: 0 <= k < |ids| ==> r[|links| + k].metObjectId == IdText(ids[k])
  {
    forall k | 0 <= k < |ids| ensures r[|links| + k].metObjectId == IdText(ids[k]) {
      if k == 0 {
        assert r[|links|] == next[|links|];
      } else {
        assert ids[k] == ids[1..][k - 1];
      }
    }
  }

  /** Links without a position, in ascending row-id order, are already in both
      handlers' orders. */
  lemma UnpositionedAscendingIsSorted(rows: seq<Links.LinkRow>)
    requires RowIdsAscending(rows)
    requires forall k :: 0 <= k < |rows| ==> rows[k].sortOrder.None?
    ensures Links.ResolverOrder(rows) == rows && Links.IdListOrder(rows) == rows
  {
    assert Sorting.SortedBy(Links.ResolverKey, rows);
    assert Sorting.SortedBy(Links.IdListKey, rows);
    Sorting.SortBySorted(Links.ResolverKey, rows);
    Sorting.SortBySorted(Links.IdListKey, rows);
  }

  lemma NoOwnLinkNoPair(links: seq<Links.LinkRow>, collectionId: int, ids: seq<int>)
    requires Links.LinksOf(links, collectionId) == []
    ensures forall k :: 0 <= k < |ids| ==> (collectionId, IdText(ids[k])) !in Pairs(links)
  {
    assert forall i :: 0 <= i < |links| ==> links[i].collectionId != collectionId;
  }

  lemma OwnLinksAfterAppend(links: seq<Links.LinkRow>, collectionId: int, added: seq<Links.LinkRow>)
    requires Links.LinksOf(links, collectionId) == []
    requires forall k :: 0 <= k < |added| ==> added[k].collectionId == collectionId
    ensures Links.LinksOf(links + added, collectionId) == added
  {
    Seqs.FilterAppend(Links.InCollection(collectionId), links, added);
    Seqs.FilterAllPass(Links.InCollection(collectionId), added);
  }

  /** The rows appended after `links`, read off the new table. */
  lemma AppendedRows(links: seq<Links.LinkRow>, r: seq<Links.LinkRow>, collectionId: int, ids: seq<int>)
    requires links <= r && |r| == |links| + |ids| && RowIdsAscending(r)
    requires forall k :: |links| <= k < |r| ==> r[k].collectionId == collectionId && r[k].sortOrder.None?
    requires forall k :: 0 <= k < |ids| ==> r[|links| + k].metObjectId == IdText(ids[k])
    ensures r == links + r[|links|..]
    ensures var added := r[|links|..];
            && |added| == |ids|
            && RowIdsAscending(added)
            && (forall k :: 0 <= k < |added| ==> added[k].collectionId == collectionId)
            && (forall k :: 0 <= k < |ids| ==> added[k].metObjectId == IdText(ids[k]) && added[k].sortOrder.None?)
  {
    var added := r[|links|..];
    assert forall k :: 0 <= k < |added| ==> added[k] == r[|links| + k];
  }

  /** Seeding a collection that has no links yet gives it exactly one new link per hit,
      in search order. */
  lemma SeededLinks(links: seq<Links.LinkRow>, collectionId: int, ids: seq<int>)
    requires Seqs.NoDuplicates(ids) && RowIdsAscending(links)
    requires Links.LinksOf(links, collectionId) == []
    ensures var own := Links.LinksOf(InsertArtworkIds(links, collectionId, ids), collectionId);
            && |own| == |ids|
            && RowIdsAscending(own)
            && (forall k :: 0 <= k < |ids| ==> own[k].metObjectId == IdText(ids[k]) && own[k].sortOrder.None?)
  {
    NoOwnLinkNoPair(links, collectionId, ids);
    InsertFreshIds(links, collectionId, ids);
    var r := InsertArtworkIds(links, collectionId, ids);
    AppendedRows(links, r, collectionId, ids);
    OwnLinksAfterAppend(links, collectionId, r[|links|..]);
  }

  /** A freshly seeded collection is served in search order by both artwork handlers:
      none of its links has a position, and their row ids ascend. */
  lemma SeededCollectionInSearchOrder(links: seq<Links.LinkRow>, collectionId: int, ids: seq<int>)
    requires Seqs.NoDuplicates(ids) && RowIdsAscending(links)
    requires Links.LinksOf(links, collectionId) == []
    ensures var own := Links.LinksOf(InsertArtworkIds(links, collectionId, ids), collectionId);
            && Seqs.Map(Links.MetObjectId, Links.ResolverOrder(own)) == Seqs.Map(IdText, ids)
            && Seqs.Map(Links.MetObjectId, Links.IdListOrder(own)) == Seqs.Map(IdText, ids)
  {
    SeededLinks(links, collectionId, ids);
    var own := Links.LinksOf(InsertArtworkIds(links, collectionId, ids), collectionId);
    UnpositionedAscendingIsSorted(own);
  }

  /** One entry of the script's theme list: the collection to create and its search. */
  datatype Theme = Theme(name: string, description: string, category: string, cover: string)

  /** The stores after one theme is seeded, with the new collection's id. */
  datatype Seeded = Seeded(collections: seq<CollectionsApi.CollectionRow>, links: seq<Links.LinkRow>, collectionId: int)

  /** One turn of the script's loop for a theme whose search answered `response`: a
      failed search ends the run; otherwise a published collection is inserted and
      linked to the first twenty hits. */
  function SeedTheme(collections: seq<CollectionsApi.CollectionRow>, links: seq<Links.LinkRow>,
                     theme: Theme, response: SearchResponse): (r: Result<Seeded>)
    ensures r.Failure? <==> !response.ok
    ensures r.Failure? ==> r == Failure(MetSearch(response).error)
    ensures r.Success? ==>
              var s := r.value;
              && |s.collections| == |collections| + 1 && s.collections[..|collections|] == collections
              && s.collections[|collections|].id == s.collectionId
              && s.collections[|collections|].name == theme.name
              && s.collections[|collections|].isPublished == 1
              && (forall k :: 0 <= k < |collections| ==> collections[k].id < s.collectionId)
              && links <= s.links
              && Pairs(s.links) == Pairs(links) + IdPairs(s.collectionId, Pick(MetSearch(response).value))
  {
    match MetSearch(response)
    case Failure(e) => Failure(e)
    case Success(hits) =>
      var picked := Pick(hits);
      var (next, id) := UpsertCollection(collections, theme.name, theme.description, theme.category,
                                         theme.cover, Js.Bool(true));
      InsertArtworkIdsUnion(links, id, picked);
      Success(Seeded(next, InsertArtworkIds(links, id, picked), id))
  }

  /** A prefix of a list without duplicates has none either. */
  lemma PickKeepsNoDuplicates(ids: seq<int>)
    requires Seqs.NoDuplicates(ids)
    ensures Seqs.NoDuplicates(Pick(ids))
  {
    var r := Pick(ids);
    assert forall k :: 0 <= k < |r| ==> r[k] == ids[k];
  }

  /** A theme whose search returns distinct hits, seeded under an id no link uses yet,
      shows its first twenty hits in search order through both artwork handlers. */
  lemma SeededThemeInSearchOrder(collections: seq<CollectionsApi.CollectionRow>, links: seq<Links.LinkRow>,
                                 theme: Theme, response: SearchResponse)
    requires response.ok && response.objectIds.Some? && Seqs.NoDuplicates(response.objectIds.value)
    requires RowIdsAscending(links)
    requires Links.LinksOf(links, CollectionsApi.NextId(collections)) == []
    ensures SeedTheme(collections, links, theme, response).Success?
    ensures var s := SeedTheme(collections, links, theme, response).value;
            var own := Links.LinksOf(s.links, s.collectionId);
            && Seqs.Map(Links.MetObjectId, Links.ResolverOrder(own)) == Seqs.Map(IdText, Pick(response.objectIds.value))
            && Seqs.Map(Links.MetObjectId, Links.IdListOrder(own)) == Seqs.Map(IdText, Pick(response.objectIds.value))
  {
    var picked := Pick(response.objectIds.value);
    PickKeepsNoDuplicates(response.objectIds.value);
    SeededCollectionInSearchOrder(links, CollectionsApi.NextId(collections), picked);
  }
}

=== FILE: seqs.dfy ===
/** The array operations the application composes: `map`, `map(f).filter(Boolean)`,
    `filter`, concatenation of chunks, and reversal; with the order-preservation facts
    the rest of the model relies on. */
module Seqs {
  import opened Wrappers

  /** `s.map(f)`. */
  function Map<A, B>(f: A -> B, s: seq<A>): (r: seq<B>)
    ensures |r| == |s|
    ensures forall i :: 0 <= i < |s| ==> r[i] == f(s[i])
  {
    seq(|s|, i requires 0 <= i < |s| => f(s[i]))
  }

  lemma MapAppend<A, B>(f: A -> B, a: seq<A>, b: seq<A>)
    ensures Map(f, a + b) == Map(f, a) + Map(f, b)
  {
  }

  /** The image of a non-empty sequence: its head's image, then its tail's. */
  lemma MapHead<A, B>(f: A -> B, s: seq<A>)
    requires s != []
    ensures multiset(Map(f, s)) == multiset{f(s[0])} + multiset(Map(f, s[1..]))
  {
    assert Map(f, s) == [f(s[0])] + Map(f, s[1..]);
  }

  /** The contribution of one element to `FilterMap`: its result when present. */
  function Present<A, B>(f: A -> Option<B>, x: A): (r: seq<B>)
    ensures |r| <= 1
  {
    match f(x)
    case Some(b) => [b]
    case None => []
  }

  /** `s.map(f).filter(Boolean)` where `f` yields an object or `null`: the present
      results of `f`, in input order. */
  function FilterMap<A, B>(f: A -> Option<B>, s: seq<A>): (r: seq<B>)
    ensures |r| <= |s|
  {
    if s == [] then [] else Present(f, s[0]) + FilterMap(f, s[1..])
  }

  function Shift(idx: seq<nat>): (r: seq<nat>)
    ensures |r| == |idx|
    ensures forall k :: 0 <= k < |idx| ==> r[k] == idx[k] + 1
  {
    Map((k: nat) => k + 1, idx)
  }

  /** The positions of `s` whose result survives `FilterMap`, in increasing order. */
  function KeptIndices<A, B>(f: A -> Option<B>, s: seq<A>): seq<nat> {
    if s == [] then []
    else (if f(s[0]).Some? then [0] else []) + Shift(KeptIndices(f, s[1..]))
  }

  /** `r` lists the present results of `f` over `s` at the strictly increasing positions
      `idx`, and `idx` misses no position whose result is present. */
  ghost predicate OrderedImage<A, B>(f: A -> Option<B>, s: seq<A>, r: seq<B>, idx: seq<nat>) {
    && |idx| == |r|
    && (forall k :: 0 <= k < |idx| ==> idx[k] < |s| && f(s[idx[k]]) == Some(r[k]))
    && (forall k, l :: 0 <= k < l < |idx| ==> idx[k] < idx[l])
    && (forall i :: 0 <= i < |s| && f(s[i]).Some? ==> i in idx)
  }

  lemma {:induction false} KeptIndicesPick<A, B>(f: A -> Option<B>, s: seq<A>)
    ensures |KeptIndices(f, s)| == |FilterMap(f, s)|
    ensures forall k :: 0 <= k < |KeptIndices(f, s)| ==>
              KeptIndices(f, s)[k] < |s| && f(s[KeptIndices(f, s)[k]]) == Some(FilterMap(f, s)[k])
  {
    if s != [] {
      KeptIndicesPick(f, s[1..]);
      var tail, tailIdx := FilterMap(f, s[1..]), KeptIndices(f, s[1..]);
      var r, idx := FilterMap(f, s), KeptIndices(f, s);
      var d := if f(s[0]).Some? then 1 else 0;
      assert |idx| == d + |tailIdx| && |r| == d + |tail|;
      forall k | d <= k < |idx| ensures idx[k] < |s| && f(s[idx[k]]) == Some(r[k]) {
        assert idx[k] == tailIdx[k - d] + 1;
        assert r[k] == tail[k - d];
        assert s[idx[k]] == s[1..][tailIdx[k - d]];
      }
    }
  }

  lemma {:induction false} KeptIndicesIncrease<A, B>(f: A -> Option<B>, s: seq<A>)
    ensures forall k, l :: 0 <= k < l < |KeptIndices(f, s)| ==> KeptIndices(f, s)[k] < KeptIndices(f, s)[l]
  {
    if s != [] {
      KeptIndicesIncrease(f, s[1..]);
    }
  }

  lemma {:induction false} KeptIndicesComplete<A, B>(f: A -> Option<B>, s: seq<A>)
    ensures forall i :: 0 <= i < |s| && f(s[i]).Some? ==> i in KeptIndices(f, s)
  {
    if s != [] {
      KeptIndicesComplete(f, s[1..]);
      var tailIdx := KeptIndices(f, s[1..]);
      var idx := KeptIndices(f, s);
      var d := if f(s[0]).Some? then 1 else 0;
      forall i | 0 < i < |s| && f(s[i]).Some? ensures i in idx {
        assert s[1..][i - 1] == s[i];
        var k :| 0 <= k < |tailIdx| && tailIdx[k] == i - 1;
        assert idx[k + d] == i;
      }
    }
  }

  /** `FilterMap` is an order-preserving image: each output element is the result for
      one input position, positions increase along the output, and every input whose
      result is present contributes. */
  lemma FilterMapOrderedImage<A, B>(f: A -> Option<B>, s: seq<A>)
    ensures OrderedImage(f, s, FilterMap(f, s), KeptIndices(f, s))
  {
    KeptIndicesPick(f, s);
    KeptIndicesIncrease(f, s);
    KeptIndicesComplete(f, s);
  }

  /** Filtering a concatenation filters each part: chunk-by-chunk filtering agrees with
      filtering the whole. */
  lemma {:induction false} FilterMapAppend<A, B>(f: A -> Option<B>, a: seq<A>, b: seq<A>)
    ensures FilterMap(f, a + b) == FilterMap(f, a) + FilterMap(f, b)
  {
    if a != [] {
      assert (a + b)[0] == a[0];
      assert (a + b)[1..] == a[1..] + b;
      FilterMapAppend(f, a[1..], b);
    } else {
      assert a + b == b;
    }
  }

  /** When every result is present nothing is dropped: the output is `s` mapped
      position by position. */
  lemma {:induction false} FilterMapAllPresent<A, B>(f: A -> Option<B>, s: seq<A>)
    requires forall i :: 0 <= i < |s| ==> f(s[i]).Some?
    ensures |FilterMap(f, s)| == |s|
    ensures forall i :: 0 <= i < |s| ==> f(s[i]) == Some(FilterMap(f, s)[i])
  {
    if s != [] {
      FilterMapAllPresent(f, s[1..]);
      assert Present(f, s[0]) == [f(s[0]).value];
      forall i | 0 < i < |s| ensures f(s[i]) == Some(FilterMap(f, s)[i]) {
        assert s[i] == s[1..][i - 1];
      }
    }
  }

  /** The option-valued form of a predicate: keep `x` exactly when `p(x)`. */
  function Guard<T>(p: T -> bool): T -> Option<T> {
    x => if p(x) then Some(x) else None
  }

  /** `s.filter(p)`. */
  function Filter<T>(p: T -> bool, s: seq<T>): (r: seq<T>)
    ensures |r| <= |s|
    ensures forall k :: 0 <= k < |r| ==> r[k] in s && p(r[k])
    ensures forall i :: 0 <= i < |s| && p(s[i]) ==> s[i] in r
  {
    FilterMapOrderedImage(Guard(p), s);
    var r := FilterMap(Guard(p), s);
    var idx := KeptIndices(Guard(p), s);
    assert forall k :: 0 <= k < |r| ==> r[k] == s[idx[k]] && p(r[k]);
    assert forall i :: 0 <= i < |s| && p(s[i]) ==> s[i] in r by {
      forall i | 0 <= i < |s| && p(s[i]) ensures s[i] in r {
        assert Guard(p)(s[i]).Some?;
        var k :| 0 <= k < |idx| && idx[k] == i;
      }
    }
    r
  }

  /** The kept elements sit at strictly increasing positions of the input. */
  lemma FilterInOrder<T>(p: T -> bool, s: seq<T>)
    ensures var r, idx := Filter(p, s), KeptIndices(Guard(p), s);
            |idx| == |r|
            && (forall k :: 0 <= k < |idx| ==> idx[k] < |s| && s[idx[k]] == r[k])
            && (forall k, l :: 0 <= k < l < |idx| ==> idx[k] < idx[l])
  {
    FilterMapOrderedImage(Guard(p), s);
  }

  lemma FilterAppend<T>(p: T -> bool, a: seq<T>, b: seq<T>)
    ensures Filter(p, a + b) == Filter(p, a) + Filter(p, b)
  {
    FilterMapAppend(Guard(p), a, b);
  }

  /** Filtering keeps every passing value as often as it occurs and drops every other. */
  lemma {:induction false} FilterCounts<T>(p: T -> bool, s: seq<T>)
    ensures forall x :: multiset(Filter(p, s))[x] == if p(x) then multiset(s)[x] else 0
  {
    if s != [] {
      FilterCounts(p, s[1..]);
      assert s == [s[0]] + s[1..];
      FilterAppend(p, [s[0]], s[1..]);
      assert Filter(p, [s[0]]) == if p(s[0]) then [s[0]] else [];
    }
  }

  /** A filter that every element passes keeps the sequence as it is. */
  lemma {:induction false} FilterAllPass<T>(p: T -> bool, s: seq<T>)
    requires forall k :: 0 <= k < |s| ==> p(s[k])
    ensures Filter(p, s) == s
  {
    if s != [] {
      FilterAllPass(p, s[1..]);
      assert Filter(p, s) == [s[0]] + Filter(p, s[1..]);
    }
  }

  /** The concatenation of a sequence of chunks. */
  function Flatten<T>(chunks: seq<seq<T>>): (r: seq<T>)
    ensures chunks == [] ==> r == []
  {
    if chunks == [] then [] else chunks[0] + Flatten(chunks[1..])
  }

  lemma {:induction false} FlattenSnoc<T>(chunks: seq<seq<T>>, last: seq<T>)
    ensures Flatten(chunks + [last]) == Flatten(chunks) + last
  {
    if chunks != [] {
      assert (chunks + [last])[1..] == chunks[1..] + [last];
      FlattenSnoc(chunks[1..], last);
    } else {
      assert Flatten([last]) == last + Flatten([]);
    }
  }

  /** `s` read back to front (an `ORDER BY ... DESC` over an ascending store). */
  function Reverse<T>(s: seq<T>): (r: seq<T>)
    ensures |r| == |s|
    ensures forall k :: 0 <= k < |s| ==> r[k] == s[|s| - 1 - k]
    ensures forall k :: 0 <= k < |s| ==> s[k] == r[|s| - 1 - k]
  {
    seq(|s|, k requires 0 <= k < |s| => s[|s| - 1 - k])
  }

  lemma ReverseSnoc<T>(s: seq<T>, x: T)
    ensures Reverse(s + [x]) == [x] + Reverse(s)
  {
  }

  /** No value occurs twice. */
  predicate NoDuplicates<T(==)>(s: seq<T>) {
    forall i, j :: 0 <= i < j < |s| ==> s[i] != s[j]
  }
}

=== FILE: sorting.dfy ===
/** Sorting rows by a two-part key, the shape of an SQL `ORDER BY a, b` clause. */
module Sorting {
  import Seqs

  /** A sort key compared lexicographically: `major` first, `minor` to break ties. */
  datatype Key = Key(major: int, minor: int)

  predicate KeyLe(a: Key, b: Key) {
    a.major < b.major || (a.major == b.major && a.minor <= b.minor)
  }

  /** Every earlier element's key is at most every later element's key. */
  predicate SortedBy<T>(key: T -> Key, s: seq<T>) {
    forall i, j :: 0 <= i < j < |s| ==> KeyLe(key(s[i]), key(s[j]))
  }

  /** Puts `x` in front of the first element whose key is not below it. */
  function Insert<T>(key: T -> Key, x: T, s: seq<T>): (r: seq<T>)
    ensures multiset(r) == multiset(s) + multiset{x}
    ensures SortedBy(key, s) ==> SortedBy(key, r)
  {
    if s == [] || KeyLe(key(x), key(s[0])) then
      PrependKeepsSorted(key, x, s);
      [x] + s
    else
      var rest := Insert(key, x, s[1..]);
      assert s == [s[0]] + s[1..];
      if SortedBy(key, s) then
        HeadStaysFirst(key, x, s, rest);
        [s[0]] + rest
      else
        [s[0]] + rest
  }

  lemma PrependKeepsSorted<T>(key: T -> Key, x: T, s: seq<T>)
    requires s == [] || KeyLe(key(x), key(s[0]))
    ensures SortedBy(key, s) ==> SortedBy(key, [x] + s)
  {
    if SortedBy(key, s) && s != [] {
      forall j | 0 < j < |s| + 1 ensures KeyLe(key(x), key(([x] + s)[j])) {
        assert KeyLe(key(s[0]), key(s[j - 1])) || j == 1;
      }
    }
  }

  /** When `x` does not go first, the head of a sorted `s` stays in front of the rest
      with `x` inserted. */
  lemma HeadStaysFirst<T>(key: T -> Key, x: T, s: seq<T>, rest: seq<T>)
    requires s != [] && !KeyLe(key(x), key(s[0])) && SortedBy(key, s)
    requires multiset(rest) == multiset(s[1..]) + multiset{x} && SortedBy(key, rest)
    ensures SortedBy(key, [s[0]] + rest)
  {
    forall j | 0 <= j < |rest| ensures KeyLe(key(s[0]), key(rest[j])) {
      assert rest[j] in multiset(rest);
      if rest[j] != x {
        assert rest[j] in s[1..];
        var m :| 0 <= m < |s[1..]| && s[1..][m] == rest[j];
        assert s[m + 1] == rest[j];
      }
    }
  }

  /** Insertion sort, stable: elements with equal keys keep their input order. */
  function SortBy<T>(key: T -> Key, s: seq<T>): (r: seq<T>)
    ensures multiset(r) == multiset(s)
    ensures SortedBy(key, r)
  {
    if s == [] then []
    else
      assert s == [s[0]] + s[1..];
      Insert(key, s[0], SortBy(key, s[1..]))
  }

  /** Sorting a sequence that is already in key order leaves it as it is. */
  lemma {:induction false} SortBySorted<T>(key: T -> Key, s: seq<T>)
    requires SortedBy(key, s)
    ensures SortBy(key, s) == s
  {
    if s != [] {
      assert SortedBy(key, s[1..]);
      SortBySorted(key, s[1..]);
      assert s == [s[0]] + s[1..];
    }
  }

  lemma {:induction false} InsertKeepsImages<T, U>(key: T -> Key, f: T -> U, x: T, s: seq<T>)
    ensures multiset(Seqs.Map(f, Insert(key, x, s))) == multiset(Seqs.Map(f, s)) + multiset{f(x)}
  {
    var r := Insert(key, x, s);
    if s == [] || KeyLe(key(x), key(s[0])) {
      assert r == [x] + s;
      Seqs.MapHead(f, r);
      assert r[1..] == s;
    } else {
      var rest := Insert(key, x, s[1..]);
      assert r == [s[0]] + rest;
      InsertKeepsImages(key, f, x, s[1..]);
      Seqs.MapHead(f, r);
      assert r[1..] == rest;
      Seqs.MapHead(f, s);
    }
  }

  /** Sorting permutes the rows, so it permutes any projection of them too (the ids a
      handler reads from its ordered rows). */
  lemma {:induction false} SortByKeepsImages<T, U>(key: T -> Key, f: T -> U, s: seq<T>)
    ensures multiset(Seqs.Map(f, SortBy(key, s))) == multiset(Seqs.Map(f, s))
  {
    if s != [] {
      var t := SortBy(key, s[1..]);
      assert SortBy(key, s) == Insert(key, s[0], t);
      SortByKeepsImages(key, f, s[1..]);
      InsertKeepsImages(key, f, s[0], t);
      Seqs.MapHead(f, s);
    }
  }
}

=== FILE: sqlite.dfy ===
/** The SQLite rules the model needs: how a new row's id is chosen, and which values
    a statement parameter accepts. */
module Sqlite {
  import Js

  /** The JSON scalars better-sqlite3 binds to a statement parameter: numbers, text and
      `null`. Binding `true`, `false` or `undefined` makes `run` throw a TypeError. */
  predicate Bindable(v: Js.Value) {
    v.Null? || v.Num? || v.Str?
  }

  function MaxOf(ids: seq<int>): (m: int)
    requires ids != []
    ensures forall k :: 0 <= k < |ids| ==> ids[k] <= m
    ensures m in ids
  {
    if |ids| == 1 then ids[0]
    else
      var rest := MaxOf(ids[1..]);
      assert forall k :: 1 <= k < |ids| ==> ids[k] == ids[1..][k - 1];
      if ids[0] >= rest then ids[0] else rest
  }

  /** The rowid SQLite gives the next insert: 1 in an empty table, else one above the
      largest rowid in use, so it is fresh. */
  function NextRowId(ids: seq<int>): (r: int)
    ensures forall k :: 0 <= k < |ids| ==> ids[k] < r
    ensures ids == [] ==> r == 1
    ensures ids != [] ==> r - 1 in ids
  {
    if ids == [] then 1 else MaxOf(ids) + 1
  }
}

=== FILE: use_favorites.dfy ===
/** The browser-side favourites list of frontend/src/hooks/useFavorites.js: an ordered
    list of catalog ids kept in local storage. */
module UseFavorites {
  import opened Wrappers
  import Seqs

  function NotEqual(id: string): string -> bool {
    (x: string) => x != id
  }

  /** `toggleFavorite(id)` applied to the previous list: remove every copy of a present
      id, append an absent one. Either way membership of `id` flips. */
  function Toggle(favorites: seq<string>, id: string): (r: seq<string>)
    ensures id !in favorites ==> r == favorites + [id]
    ensures id in favorites ==> forall k :: 0 <= k < |r| ==> r[k] != id
    ensures IsFavorite(r, id) == !IsFavorite(favorites, id)
  {
    if id in favorites then Seqs.Filter(NotEqual(id), favorites) else favorites + [id]
  }

  /** `isFavorite(id)`. */
  predicate IsFavorite(favorites: seq<string>, id: string) {
    id in favorites
  }

  lemma FilterTwice(p: string -> bool, s: seq<string>)
    ensures Seqs.Filter(p, Seqs.Filter(p, s)) == Seqs.Filter(p, s)
  {
    Seqs.FilterAllPass(p, Seqs.Filter(p, s));
  }

  /** A toggle leaves every other id where it was: the list without `id` is the same
      before and after, so the other ids keep their membership and relative order. */
  lemma ToggleKeepsOthers(favorites: seq<string>, id: string)
    ensures Seqs.Filter(NotEqual(id), Toggle(favorites, id)) == Seqs.Filter(NotEqual(id), favorites)
    ensures forall other :: other != id ==> (other in Toggle(favorites, id) <==> other in favorites)
  {
    if id in favorites {
      FilterTwice(NotEqual(id), favorites);
    } else {
      Seqs.FilterAppend(NotEqual(id), favorites, [id]);
      assert Seqs.Filter(NotEqual(id), [id]) == [];
      assert Seqs.Filter(NotEqual(id), favorites) + [] == Seqs.Filter(NotEqual(id), favorites);
    }
    forall other | other != id
      ensures other in Toggle(favorites, id) <==> other in favorites
    {
      if other in favorites {
        var i :| 0 <= i < |favorites| && favorites[i] == other;
        assert NotEqual(id)(favorites[i]);
      }
    }
  }

  /** A filter keeps a list free of duplicates. */
  lemma FilterKeepsNoDuplicates(p: string -> bool, s: seq<string>)
    requires Seqs.NoDuplicates(s)
    ensures Seqs.NoDuplicates(Seqs.Filter(p, s))
  {
    var g := Seqs.Guard(p);
    Seqs.FilterMapOrderedImage(g, s);
    var r, idx := Seqs.Filter(p, s), Seqs.KeptIndices(g, s);
    forall k | 0 <= k < |r| ensures r[k] == s[idx[k]] {
      assert g(s[idx[k]]) == Some(r[k]);
    }
  }

  /** Toggling keeps the list free of duplicates. */
  lemma ToggleKeepsNoDuplicates(favorites: seq<string>, id: string)
    requires Seqs.NoDuplicates(favorites)
    ensures Seqs.NoDuplicates(Toggle(favorites, id))
  {
    if id in favorites {
      FilterKeepsNoDuplicates(NotEqual(id), favorites);
    }
  }

  /** Toggling an absent id twice gives back the list; toggling a present id twice moves
      it to the end. */
  lemma ToggleTwice(favorites: seq<string>, id: string)
    ensures id !in favorites ==> Toggle(Toggle(favorites, id), id) == favorites
    ensures id in favorites ==>
              Toggle(Toggle(favorites, id), id) == Seqs.Filter(NotEqual(id), favorites) + [id]
  {
    if id !in favorites {
      Seqs.FilterAppend(NotEqual(id), favorites, [id]);
      assert Seqs.Filter(NotEqual(id), [id]) == [];
      Seqs.FilterAllPass(NotEqual(id), favorites);
      assert favorites + [] == favorites;
    }
  }

  /** What `JSON.parse` makes of the stored text. */
  datatype Parsed = Unparsable | NotArray | ArrayOf(items: seq<string>)

  /** The mount-time load: a stored value is adopted only when it parses to an array;
      an absent or empty entry, a parse error or any other JSON value leaves `[]`. */
  function LoadFavorites(stored: Option<string>, parse: string -> Parsed): (r: seq<string>)
    ensures r != [] ==> stored.Some? && stored.value != "" && parse(stored.value) == ArrayOf(r)
    ensures stored.Some? && stored.value != "" && parse(stored.value).ArrayOf? ==> r == parse(stored.value).items
  {
    match stored
    case None => []
    case Some(text) =>
      if text == "" then []
      else match parse(text)
           case ArrayOf(items) => items
           case _ => []
  }
}

=== FILE: wrappers.dfy ===
/** Optional values and HTTP-style replies shared by every module of the model. */
module Wrappers {

  /** A value that may be absent: a missing JSON field, a SQL NULL, a `null` result. */
  datatype Option<+T> = None | Some(value: T) {

    /** The wrapped value, or `default` when absent (SQL `COALESCE`, JavaScript `??`). */
    function GetOr(default: T): T {
      match this
      case Some(v) => v
      case None => default
    }
  }

  /** The outcome of a step that either yields a value or fails with a message. */
  datatype Result<+T> = Success(value: T) | Failure(error: string)

  /** An HTTP reply: a status code with a JSON body, or an error status with the
      `{ error }` message the server sends. */
  datatype Reply<+T> = Ok(code: int, body: T) | Fail(code: int, message: string)

  /** A handler's effect on the store it owns together with the reply it sends. */
  datatype Step<+S, +T> = Step(state: S, reply: Reply<T>)

  const OK := 200
  const CREATED := 201
  const NO_CONTENT := 204
  const BAD_REQUEST := 400
  const NOT_FOUND := 404
  const SERVER_ERROR := 500
}
